=== FILE: README.md ===
# Zengest-MS identity, gateway and order core in Dafny

This project models the security and ordering core of the Zengest restaurant
back end, a set of NestJS micro-services. The model is written as pure
functions over immutable data.

- **Identity service** (`auth-service`):
  - The user record, with its schema defaults, its pre-save password hashing
    hook, its `toJSON` transform and its statics.
  - Registration, login, refresh-token rotation, logout and access-token
    verification.
  - The registration form's validation rules and the role enumeration.
- **Gateway** (`gateway`):
  - The global authentication guard, which reads the bearer header, skips
    `@Public()` routes and asks the identity service to verify the token.
  - The roles guard, which checks a literal role whitelist.
  - The gateway's laxer copy of the registration form.
- **Order service** (`order-service`):
  - Order-number generation and order creation.
  - The listings, which skip `DELETED` orders and put the newest first.
  - Lookup by number.
  - The update query builder and the append-only status history.

Modules follow the program's structure:

- `Wrappers`: `Option` and `Result`.
- `Strings`: the JavaScript string primitives the source relies on, namely
  `split`, `parseInt`, `padStart`, `toString` and `trim`, plus MongoDB's
  string ordering.
- `Roles`.
- `Encoding`: UTF-8, unpadded base64url and JSON string quoting, the byte
  encodings a compact JWT is made of.
- `Crypto`: bcrypt's comparison and the JWT text, signing and verification.
- `UserSchema`.
- `AuthService`.
- `RegisterDto`.
- `Guards`.
- `Pipeline`: the gateway and the identity service together.
- `Orders`.

Cryptography is modelled by what the source relies on, not by its
algorithm:

- A bcrypt digest is `Bcrypt(input)`. bcrypt reads only the first 72 bytes
  of the UTF-8 encoding of its input, so `bcrypt.compare` succeeds exactly
  when the candidate agrees with the hashed input on those bytes
  (`Crypto.Window`).
- A JWT is either `Signed(claims, key, issuedAt, expiresAt)` or arbitrary
  forged text. The text of a signed token is modelled up to its signature:
  the base64url header, a dot, and the base64url of the JSON payload with
  `sub` first and `iat`, `exp` last.
- Verification accepts exactly a token signed with the expected key and not
  yet expired.
- How a refresh token is bound to its record is a parameter
  (`AuthService.Binding`). `BcryptOfToken` is the service as written:
  bcrypt over the token's text. `BcryptOfDigest` is the correction of the
  finding below: bcrypt over the token's SHA-256 digest, which fits inside
  bcrypt's 72 bytes.

MongoDB is modelled as follows:

- The users collection is a map from id to record. The store invariant
  `AuthService.Valid` says that:
  - ids are consistent and emails unique (the unique index);
  - every stored name is 2 to 50 characters long (the schema's length
    validators);
  - every stored refresh-token digest is the bcrypt digest, under either
    binding, of a refresh token issued for that user.
- The orders collection is a sequence in creation order.
- The clock (`now`, the current date) and the fresh `_id` of a new user are
  parameters.

## Model

| member | source | states |
|---|---|---|
| Roles.FromName | auth-service/src/common/roles.enum.ts:8-16 | a string names a role exactly when it is one of the seven enumeration values; each result names the string it was read from |
| Roles.NameRoundTrip | auth-service/src/common/roles.enum.ts:8-16 | every role's value reads back as that role |
| Roles.AllRolesComplete | auth-service/src/common/roles.enum.ts:8-16 | the list of the enumeration's values holds every role, each once |
| Roles.NameListed | auth-service/src/common/roles.enum.ts:8-16 | a role's value is among the values of a role list exactly when the role is in the list |
| Crypto.CompareIffSameWindow | auth-service/src/users/schemas/user.schema.ts:140-145 | comparing a candidate with a bcrypt digest succeeds exactly when the candidate and the hashed input agree on the bytes bcrypt reads |
| Crypto.ShortTextExact | auth-service/src/users/schemas/user.schema.ts:140-145 | for a hashed text shorter than 72 UTF-8 bytes, comparison succeeds exactly for that text |
| Crypto.LongTextTruncated | auth-service/src/users/schemas/user.schema.ts:140-145 | a hashed text of 72 bytes or more also matches every text that extends it |
| Crypto.PrehashExact | auth-service/src/auth/auth.service.ts:166-176 | comparing the SHA-256 digest of a token with the bcrypt digest of another token's SHA-256 digest succeeds exactly when the two tokens are the same |
| Crypto.SameSubjectSameWindow | auth-service/src/auth/auth.service.ts:234-263 | two signed tokens whose subject is the same string of at least 19 characters agree on the first 72 bytes of their text, whatever their other claims, key and instants |
| Crypto.SignThenVerify | auth-service/src/auth/auth.service.ts:213-221 | a signed token verifies with its own key, yielding its claims, exactly until its expiry instant |
| Crypto.WrongKeyRejected | auth-service/src/auth/auth.service.ts:213-221 | a token signed with one key never verifies with another |
| Strings.Trim | auth-service/src/users/schemas/user.schema.ts:39 | the trimmed text neither starts nor ends with white space and is no longer than the input |
| Strings.TrimIsStretch | auth-service/src/users/schemas/user.schema.ts:39 | the trimmed text is a stretch of the input with only white space before and after it |
| Strings.TrimPadded | auth-service/src/users/schemas/user.schema.ts:39 | a text with no white space at its ends, padded with white space on either side, trims back to exactly that text |
| Strings.TrimIdempotent | auth-service/src/users/schemas/user.schema.ts:39 | trimming a trimmed text changes nothing |
| UserSchema.NewUserDoc | auth-service/src/users/schemas/user.schema.ts:37-112 | a new record takes the given names, email and phone with surrounding white space removed, and the given id; role defaults to Client; the account is active; there is no refresh binding; the password is still clear text and marked modified |
| UserSchema.PreSave | auth-service/src/users/schemas/user.schema.ts:130-133 | the hook changes only the password field: it hashes it when it was modified, the hash matches the old value, and an unmodified record is untouched |
| UserSchema.SaveIdempotent | auth-service/src/users/schemas/user.schema.ts:130-133 | saving a loaded record again does not rehash its password |
| UserSchema.PasswordSurvivesSave | auth-service/src/users/schemas/user.schema.ts:130-145 | after the first save, comparing a candidate with the stored hash succeeds exactly when it agrees with the original password on bcrypt's 72 bytes; for a password shorter than that, exactly for the original password |
| UserSchema.RehashWouldLockOut | auth-service/src/users/schemas/user.schema.ts:130-133 | hashing an existing hash again (the modified-check skipped) would make the original password fail |
| UserSchema.FullName | auth-service/src/users/schemas/user.schema.ts:150-152 | the full name is the last name, one space, then the first name |
| UserSchema.ToJson | auth-service/src/users/schemas/user.schema.ts:29-33 | serialising drops exactly the password and refresh-token digests and keeps every other field unchanged |
| UserSchema.SerialisedUserHasNoDigest | auth-service/src/users/schemas/user.schema.ts:29-33 | no serialised user record carries any digest |
| UserSchema.Save | auth-service/src/users/schemas/user.schema.ts:37-51 | a save fails exactly when a name is shorter than 2 or longer than 50 characters (a validation error, checked first) or another record has the same email; otherwise it stores the hooked record and keeps ids consistent, names within bounds and emails unique |
| UserSchema.FindById | auth-service/src/auth/auth.service.ts:158-160 | the record with that id, if there is one |
| UserSchema.FindByEmail | auth-service/src/users/schemas/user.schema.ts:159-165 | finds a record exactly when one has the argument's trimmed email; the result is that stored record with its password digest re-selected and its refresh-token binding, which stays unselected, absent |
| UserSchema.FindActiveUsers | auth-service/src/users/schemas/user.schema.ts:171-173 | exactly the active stored records, under the default projection that leaves out both select-false digests |
| UserSchema.ListedIffActive | auth-service/src/users/schemas/user.schema.ts:171-173 | a stored record appears in the active listing exactly when its account is active |
| AuthService.ProfileMatchesJson | auth-service/src/auth/auth.service.ts:71-82 | the public profile returned by register and login agrees field for field with the serialised record: id, first and last name, email, role name, active flag, and the phone, present exactly when stored |
| AuthService.GenerateTokens | auth-service/src/auth/auth.service.ts:234-263 | the access token yields {sub, email, role} under the access secret for its TTL and not after; the refresh token yields {sub} under the refresh secret for its TTL; with distinct secrets neither verifies under the other's secret |
| AuthService.Rotate | auth-service/src/auth/auth.service.ts:62-69 | issuing a pair and storing the bcrypt digest of the refresh token (or of its SHA-256 digest) keeps the store invariant and binds the record to that refresh token |
| AuthService.Register | auth-service/src/auth/auth.service.ts:40-83 | fails exactly when the trimmed email is taken (a conflict) or a trimmed name is out of the schema's 2 to 50 characters (the uncaught validation error); otherwise adds one record with the form's names, email and phone trimmed, the hashed password, the role or Client, and the active flag, bound to the returned refresh token; it returns the tokens issued for that record and its public profile, and leaves other records alone |
| AuthService.PaddedNameStoredTrimmed | auth-service/src/auth/auth.service.ts:52-59 | a first name registered with white space around it is stored and answered without it |
| AuthService.FormAcceptsSaveRefuses | auth-service/src/auth/auth.service.ts:52-77 | a first name of white space and one visible character passes the registration form's rule, yet registration fails with the validation error even though the email is free |
| AuthService.Login | auth-service/src/auth/auth.service.ts:96-137 | succeeds exactly for an active account, holding the trimmed email, whose password matches; on success only that record's refresh binding changes, to the new token, and the answer is the tokens issued for that record and its public profile; failures are invalid credentials or a disabled account |
| AuthService.LoginFailuresIndistinguishable | auth-service/src/auth/auth.service.ts:102-116 | an email no record holds once trimmed and a wrong password give the same error and message |
| AuthService.LoginDisabledWhateverPassword | auth-service/src/auth/auth.service.ts:107-109 | a disabled account is refused before its password is checked |
| AuthService.Refresh | auth-service/src/auth/auth.service.ts:150-187 | succeeds exactly for an unexpired token signed with the refresh secret, whose user exists and has a stored digest that bcrypt's comparison accepts for it; every failure is the same error; success rebinds the user to the new pair's refresh token and issues that pair for the stored user |
| AuthService.StaleTokenRefreshes | auth-service/src/auth/auth.service.ts:150-176 | as written: while a user's record is bound by bcrypt over one refresh token's text, every unexpired token signed with the refresh secret for that user refreshes and gets a new pair, not only the bound one |
| AuthService.OnlyBoundTokenRefreshes | auth-service/src/auth/auth.service.ts:162-174 | corrected, with the digest binding: once a user is bound to one refresh token, every other token for that user is refused at any instant |
| AuthService.LoginRevokesEarlierRefresh | auth-service/src/auth/auth.service.ts:118-123 | corrected, with the digest binding: after a login, a refresh token for that user other than the new one is refused |
| AuthService.RefreshRevokesPresented | auth-service/src/auth/auth.service.ts:176-181 | corrected, with the digest binding: after a refresh, presenting the spent token again is refused, provided the new token differs from it |
| AuthService.RefreshFreshnessIsSameSecond | auth-service/src/auth/auth.service.ts:243-259 | the rotated refresh token equals the presented one exactly when the presented one was issued in the same second |
| AuthService.Logout | auth-service/src/auth/auth.service.ts:198-202 | clears that user's refresh binding, changes nothing else, and is a no-op for an unknown id |
| AuthService.LogoutRevokes | auth-service/src/auth/auth.service.ts:198-202 | logout keeps the invariant, is idempotent, and under either binding every later refresh for that user is refused |
| AuthService.Verify | auth-service/src/auth/auth.service.ts:213-221 | accepts exactly unexpired tokens signed with the access secret and returns their claims; anything else is the invalid-token error |
| AuthService.TokenClassesSeparate | auth-service/src/auth/auth.service.ts:247-260 | with distinct secrets a refresh token fails verify and an access token fails refresh |
| AuthService.RegisterThenLoginSucceeds | auth-service/src/auth/auth.service.ts:40-137 | under either binding, after a registration with a free email and names that fit, logging in with the same email and password succeeds, finds the new record, and issues the pair for the login's instant |
| AuthService.RegisterThenLogin | auth-service/src/auth/auth.service.ts:40-187 | corrected, with the digest binding: registering with a free email and names that fit, then logging in at another second succeeds with a new refresh token, and the registration's refresh token is then refused |
| AuthService.RegisterThenLoginAsWritten | auth-service/src/auth/auth.service.ts:40-187 | as written, for a 24-character id: registering with a free email and names that fit, then logging in at another second succeeds with a new refresh token, yet the registration's refresh token still refreshes until it expires |
| RegisterDto.CheckPassword | auth-service/src/auth/dto/register.dto.ts:42-57 | accepts exactly passwords of 8 to 64 characters from the allowed set that contain a lower-case letter, an upper-case letter, a digit and one of @$!%*?& |
| RegisterDto.PasswordExamples | auth-service/src/auth/dto/register.dto.ts:50-56 | a dot is allowed in the password (`Abcdef1!.` passes) but does not count as the required special character (`Abcdef1.` fails) |
| RegisterDto.PhoneRecogniserMatchesPattern | auth-service/src/auth/dto/register.dto.ts:71-76 | the greedy phone recogniser accepts exactly the strings the backtracking reading of the phone regular expression matches |
| RegisterDto.OptionalIsGreedy | auth-service/src/auth/dto/register.dto.ts:73 | an optional character in the phone pattern may be taken greedily without losing any match |
| RegisterDto.LastCount | auth-service/src/auth/dto/register.dto.ts:73 | the final group matches exactly 4 to 6 digits |
| RegisterDto.GatewayRolesAgree | gateway/src/auth/dto/register.dto.ts:13-21 | the gateway's copy of the role enumeration has exactly the identity service's values, in the same order |
| RegisterDto.GatewayIsLaxer | gateway/src/auth/dto/register.dto.ts:23-59 | every form the identity service accepts passes the gateway; and any form the gateway accepts still passes it with the phone `abc`, which the identity service refuses |
| Guards.ExtractTokenIffBearerForm | gateway/src/common/guards/jwt-auth.guard.ts:83-90 | the header yields a token exactly when it starts with `Bearer `, then the token, then the end or a space |
| Guards.ExtractTokenEdgeCases | gateway/src/common/guards/jwt-auth.guard.ts:83-90 | a bare `Bearer` yields nothing, `Bearer ` yields the empty token, and a lower-case scheme is refused |
| Guards.JwtCanActivate | gateway/src/common/guards/jwt-auth.guard.ts:35-77 | public routes pass untouched; on a protected route a missing or empty token is "Token manquant", a token the verifier refuses is "Token invalide ou expiré", and a token it accepts passes with exactly the verifier's payload attached, nothing else changed |
| Guards.PublicRouteSkipsVerify | gateway/src/common/guards/jwt-auth.guard.ts:41-47 | on a public route the outcome does not depend on the verifier |
| Guards.VerifyFailureDenies | gateway/src/common/guards/jwt-auth.guard.ts:60-76 | any verification failure fails closed with 401 |
| Guards.RolesDecideByRole | gateway/src/common/guards/roles.guard.ts:14-29 | no role list or an empty one lets every request through; for a non-empty list of role names, a user whose token names role r passes exactly when r is in the list, and a request without a user is refused |
| Guards.ClientNotPromoted | gateway/src/common/guards/roles.guard.ts:14-29 | a Client is refused on a Manager/Owner/Admin route: membership is literal, with no hierarchy |
| Guards.MissingUserRefused | gateway/src/common/guards/roles.guard.ts:27-28 | without a user, any non-empty role list that does not contain '' refuses |
| Guards.Gate | gateway/src/app.module.ts:17-28 | the two global guards in order: the request passes when authentication passes and the roles guard agrees; a roles refusal is 403 |
| Guards.PublicWithRolesRefused | gateway/src/common/guards/roles.guard.ts:14-29 | a route that is both public and role-restricted refuses everybody |
| Pipeline.ToPayload | auth-service/src/auth/auth.controller.ts:59-62 | the gateway receives the verified claims' subject, and for access claims the email and role name; `iat` and `exp` are left out |
| Pipeline.IssuedAccessTokenAtGateway | gateway/src/common/guards/jwt-auth.guard.ts:35-77 | an issued access token, within its lifetime, passes a protected route exactly when the route's roles allow the user's role, and is otherwise 403; once it has expired it is 401 whatever the route requires |
| Pipeline.ClientTokenForbiddenOnStaffRoute | gateway/src/common/guards/roles.guard.ts:14-29 | a client's valid access token is 403 on a Manager/Owner/Admin route |
| Pipeline.NoRoleHierarchy | gateway/src/common/guards/roles.guard.ts:14-29 | for any non-empty list of required roles, an issued access token within its lifetime passes exactly when its own role is in the list |
| Pipeline.RefreshTokenRefusedAtGateway | gateway/src/common/guards/jwt-auth.guard.ts:60-76 | with distinct secrets a refresh token presented as a bearer credential is 401 |
| Orders.DatePrefix | order-service/src/orders/orders.service.ts:15-19 | the prefix is `ORD-` followed by digits only, at least nine characters long |
| Orders.DatePrefixDecodes | order-service/src/orders/orders.service.ts:15-19 | for any month and day below 100, the prefix decodes back to the date: the digits between `ORD-` and the last four are the year, the next two the month, the last two the day |
| Orders.SameDay | order-service/src/orders/orders.service.ts:23 | exactly the numbers that start with the day's prefix |
| Orders.GenerateOrderNumberAsWritten | order-service/src/orders/orders.service.ts:14-35 | as written: the first number of a day is `-0001`; otherwise one more than the sequence of the string-greatest number of the day, padded to at least four digits and never truncated |
| Orders.SequenceOfRendered | order-service/src/orders/orders.service.ts:29-34 | parsing the third dash-separated piece of a generated number gives back its sequence |
| Orders.MaxSequenceBounds | order-service/src/orders/orders.service.ts:29 | a number at least as large as every parseable sequence among the given numbers |
| Orders.GenerateOrderNumber | order-service/src/orders/orders.service.ts:14-35 | corrected: the number starts with the day's prefix, is not among the existing numbers, and its sequence is one more than the day's numeric maximum; the first of the day is `-0001` |
| Orders.FreshAfter | order-service/src/orders/orders.service.ts:27-34 | for any `ORD-<digits>` day prefix, a number whose sequence exceeds every sequence already used that day carries the prefix, reads back as that sequence, and is new to the collection |
| Orders.AsWrittenRepeatsAfter9999 | order-service/src/orders/orders.service.ts:22-34 | with `…-9999` and `…-10000` stored, the generator as written produces `…-10000` again, which already exists; the corrected one produces `…-10001` |
| Orders.CreateOrderWith | order-service/src/orders/orders.service.ts:38-56 | creation fails exactly on a duplicate number; otherwise it appends an order with that number, the input's customer, resource, items (none if absent), pricing and notes, status PENDING and one history entry by the customer (or `system`); supplied number, status and history are ignored |
| Orders.CreateOrderAsWritten | order-service/src/orders/orders.service.ts:38-56 | with the generator as written, creation fails exactly when the generated number is already stored; otherwise it appends an order carrying that number |
| Orders.CreateOrderAsWrittenFailsAfter9999 | order-service/src/orders/orders.service.ts:38-56 | with the generator as written, creating the next order after `…-9999` and `…-10000` fails on the unique index |
| Orders.CreateOrder | order-service/src/orders/orders.service.ts:38-56 | with the corrected generator, creation always succeeds, keeps order numbers unique, and starts the order PENDING with one history entry |
| Orders.CreatedOrderFound | order-service/src/orders/orders.service.ts:69-78 | a created order is found by its number without the `ORD-` prefix |
| Orders.CreatedOrderListedFirst | order-service/src/orders/orders.service.ts:59-66 | a created order heads the unpaginated listing, ahead of the earlier non-deleted orders |
| Orders.NewestFirst | order-service/src/orders/orders.service.ts:61-62 | exactly the kept orders |
| Orders.NewestFirstAppend | order-service/src/orders/orders.service.ts:62 | a later order comes before every earlier one in the listing |
| Orders.FindAll | order-service/src/orders/orders.service.ts:59-66 | only non-deleted stored orders; at most \|limit\| of them; all of them when limit and skip are 0; a negative skip is an error |
| Orders.FindByCustomer | order-service/src/orders/orders.service.ts:81-86 | exactly that customer's non-deleted orders |
| Orders.IndexOf | order-service/src/orders/orders.service.ts:71-73 | a position holding that number, or none exactly when no order has it |
| Orders.FindByOrderNumber | order-service/src/orders/orders.service.ts:69-78 | finds the stored order numbered `ORD-` + argument; not-found exactly when there is none, with the source's message |
| Orders.BuildUpdate | order-service/src/orders/orders.service.ts:103-141 | `$set` holds items, each given pricing field and notes exactly when supplied, and always `updatedBy`; `$push` is present exactly when a non-empty list of items is to be added |
| Orders.Update | order-service/src/orders/orders.service.ts:89-156 | an unknown number is not-found; a successful update replaces one order in place |
| Orders.UpdateEffect | order-service/src/orders/orders.service.ts:89-156 | the update fails exactly when it both replaces items and adds some; otherwise the order becomes exactly the stored one with items replaced and/or extended, notes overwritten when given, and pricing merged field by field (`Orders.MergePricing`); every other field, the resource id included, is unchanged |
| Orders.BuiltUpdateEffect | order-service/src/orders/orders.service.ts:103-152 | applying the built query to an order conflicts exactly on a replacement plus a non-empty addition, and otherwise yields that order with items, merged pricing and notes updated |
| Orders.BuiltPricingMerges | order-service/src/orders/orders.service.ts:119-128 | the per-field `pricing.*` paths of the built query leave the pricing that the field-by-field merge defines: given amounts replace, missing ones are kept, and no amount at all leaves the pricing as it was |
| Orders.UpdateStatus | order-service/src/orders/orders.service.ts:159-191 | not-found exactly for an unknown number; otherwise it sets the status (any string) and appends exactly one history entry, keeping the earlier ones |

## Left out

- Email syntax: `@IsEmail` and the schema's email pattern are not modelled. The forms' email field is unconstrained, because that validator is library code.
- `UserSchema.Save`: of the schema's validators, only the names' length bounds are run on save. The `required` flags, the email and phone `match` patterns (auth-service/src/users/schemas/user.schema.ts:53-61 and :90-96) and the password's `minLength` of 8 (:69-73) are not. The global `ValidationPipe` (auth-service/src/main.ts:22-27) applies the registration form's rules before `register` runs, and those rules are modelled in `RegisterDto`. On these fields the form is at least as strict as the schema: its phone pattern admits no surrounding white space, so trimming leaves an accepted phone unchanged, and it demands a password of 8 to 64 characters. On the names it is not, because the form checks the untrimmed name (`AuthService.FormAcceptsSaveRefuses`).
- `AuthService.Register`: the validation error is one `RecordInvalid`, whose message is only the fixed start of Mongoose's message, which goes on to name the failing path. The 500 status stands for the uncaught error.
- String lengths count Unicode code points. JavaScript's `length`, which the schema's length validators read, counts UTF-16 code units, so a name with characters outside the Basic Multilingual Plane is longer there than here.
- bcrypt and JWT internals are not modelled: salts, the cost factor, the bcrypt output, the HMAC signature, the SHA-256 digest and the `ms` duration syntax. Durations are whole seconds.
- The JWT header is given as its 36 encoded bytes, the encoding of `{"alg":"HS256","typ":"JWT"}`, rather than computed from that text.
- The text of a refresh token whose signing input is shorter than 72 bytes (a subject shorter than 19 characters) is kept symbolic: bcrypt reads such a token whole. Record ids are 24 hexadecimal characters, so this case does not arise for issued tokens.
- The NATS transport, its timeout and its error replies are not modelled. The gateway's verifier is a function parameter, and any failure of it fails closed as in the source.
- The HTTP controllers, cookies and message-pattern wiring are not modelled, apart from the `auth-verify` handler's result.
- Concurrency is not modelled: two concurrent refreshes, or the gap between register's email check and its save. Each operation is one atomic step, and the unique index is modelled as a save error.
- The order `metadata` field, `createdAt`/`updatedAt` timestamps and history timestamps are not modelled. Listing order is creation order.
- `Orders.FindAll`: its ensures bounds the result's contents and size but does not fix the exact window; `Orders.CreatedOrderListedFirst` gives the exact listing in the unpaginated case.
- `UserSchema.FindById`: refresh re-selects only the refresh-token binding, so its record has no password digest loaded; the model returns the whole record, which gives the same store after the save because the password is not modified.
- `Orders.Update`: a not-found during `findOneAndUpdate`, after the existence check passed, needs a concurrent delete, so it is not modelled.
- Item quantities and prices are `real` and are copied, never computed. Floating point is not modelled.
- `AuthService.RefreshFreshnessIsSameSecond`: under the as-written binding it requires the presented token to have the claims, key and lifetime that `generateTokens` gives. Under that binding any token for the user with the refresh key is accepted, and one with another lifetime differs from the rotated token even in the same second.
- `AuthService.RegisterThenLogin` requires the login to happen in another second than the registration. Refresh payloads carry only the subject, so two tokens issued in the same second are identical (`AuthService.RefreshFreshnessIsSameSecond`). The promise that a login always yields a different token holds only across seconds.
- `AuthService.RefreshRevokesPresented` assumes the rotated token differs from the presented one, for the same reason.
- The two signing secrets are configuration values that may coincide. The token-class separation lemmas require them to differ.

## Findings

| source | as written | input that shows it | evidently intended | confidence | as-written member | corrected member |
|---|---|---|---|---|---|---|
| order-service/src/orders/orders.service.ts:22-30 | the day's last order is the greatest order number as a string, so after sequence 9999 `…-9999` sorts above `…-10000` | orders `ORD-20240615-9999` and `ORD-20240615-10000` exist on 2024-06-15: the next number is `ORD-20240615-10000` again, and the save fails on the unique index | the next sequence is one more than the day's numerically greatest sequence (`…-10001`) | high; not executed | Orders.GenerateOrderNumberAsWritten | Orders.GenerateOrderNumber |
| auth-service/src/auth/auth.service.ts:166-176 | refresh checks the presented token with `bcrypt.compare(refreshToken, user.refreshTokenHash)`. bcrypt reads only the first 72 bytes of its input, and every refresh token of one user begins with the same 72 bytes: the 36-byte header, the dot, and the base64url of `{"sub":"` followed by the first 19 characters of the 24-character id | register at second t0, which binds refresh token R0; log in at second t1 ≠ t0, which binds R1 ≠ R0; presenting R0 before it expires is accepted and issues a new pair | only the refresh token issued last refreshes, for example by binding bcrypt over the token's SHA-256 digest | high; not executed | AuthService.RegisterThenLoginAsWritten | AuthService.RegisterThenLogin |

=== FILE: auth_service.dfy ===
/** The session lifecycle of the identity authority
    (auth-service/src/auth/auth.service.ts) as transitions over the user
    collection: register, login, refresh with rotation, logout, and the
    stateless verification of access tokens.

    The clock and the fresh `_id` of a new record are parameters; the signing
    configuration is an explicit value. */
module AuthService {
  import opened Wrappers
  import opened Roles
  import opened Crypto
  import opened UserSchema
  import opened Strings
  import RegisterDto

  /** `JWT_SECRET`, `JWT_EXPIRES_IN`, `JWT_REFRESH_SECRET`,
      `JWT_REFRESH_EXPIRES_IN`; lifetimes in seconds. */
  datatype JwtConfig = JwtConfig(accessSecret: string, accessTtl: nat, refreshSecret: string, refreshTtl: nat)

  /** The exceptions the service throws. `RecordInvalid` is the validation
      error of `user.save()` in `register`, which the service does not catch. */
  datatype AuthError = EmailTaken | InvalidCredentials | AccountDisabled | RefreshInvalid | TokenInvalid | RecordInvalid

  /** The message each exception carries. */
  function Message(e: AuthError): string {
    match e
    case EmailTaken => "Un compte existe déjà avec cet email"
    case InvalidCredentials => "Identifiants incorrects"
    case AccountDisabled => "Ce compte a été désactivé"
    case RefreshInvalid => "Refresh token invalide ou expiré"
    case TokenInvalid => "Token invalide ou expiré"
    case RecordInvalid => "User validation failed"
  }

  /** HTTP status: 409 Conflict for a taken email, 500 for the uncaught
      validation error, 401 Unauthorized otherwise. */
  function Status(e: AuthError): nat {
    if e == EmailTaken then 409 else if e == RecordInvalid then 500 else 401
  }

  datatype TokenPair = TokenPair(accessToken: Token, refreshToken: Token)

  /** The user part of a register/login answer is the public projection of
      the record: no credential hash. */
  datatype AuthResponse = AuthResponse(tokens: TokenPair, user: PublicUser)

  datatype RegisterInput = RegisterInput(
    firstName: string, lastName: string, email: string, password: string,
    role: Option<Role>, phone: Option<string>)

  datatype LoginInput = LoginInput(email: string, password: string)

  /** The public profile agrees, field for field, with the serialised record. */
  lemma ProfileMatchesJson(u: User)
    ensures var j := ToJson(Fields(u));
      && j["_id"] == JString(Profile(u).id)
      && j["firstName"] == JString(Profile(u).firstName)
      && j["lastName"] == JString(Profile(u).lastName)
      && j["email"] == JString(Profile(u).email)
      && j["role"] == JString(Name(Profile(u).role))
      && j["isActive"] == JBool(Profile(u).isActive)
      && (Profile(u).phone.Some? <==> "phone" in j)
      && (Profile(u).phone.Some? ==> j["phone"] == JString(Profile(u).phone.value))
  {
  }

  // ---------------------------------------------------------------------
  // Token issuance and the session invariant
  // ---------------------------------------------------------------------

  /** `generateTokens(user)`: an access token over `{sub, email, role}` signed
      with the access secret, and a refresh token over `{sub}` only, signed
      with the refresh secret; both issued at `now`. */
  function GenerateTokens(cfg: JwtConfig, u: User, now: int): (p: TokenPair)
    ensures forall t :: now <= t < now + cfg.accessTtl ==>
      VerifyToken(p.accessToken, cfg.accessSecret, t) == Some(AccessClaims(u.id, u.email, u.role))
    ensures forall t :: now <= t < now + cfg.refreshTtl ==>
      VerifyToken(p.refreshToken, cfg.refreshSecret, t) == Some(RefreshClaims(u.id))
    ensures forall t :: VerifyToken(p.accessToken, cfg.accessSecret, t).Some? ==> t < now + cfg.accessTtl
    ensures forall t :: VerifyToken(p.refreshToken, cfg.refreshSecret, t).Some? ==> t < now + cfg.refreshTtl
    ensures cfg.accessSecret != cfg.refreshSecret ==> forall t ::
      VerifyToken(p.accessToken, cfg.refreshSecret, t).None? && VerifyToken(p.refreshToken, cfg.accessSecret, t).None?
    ensures IsRefreshTokenFor(cfg, u.id, p.refreshToken)
  {
    TokenPair(
      Sign(AccessClaims(u.id, u.email, u.role), cfg.accessSecret, cfg.accessTtl, now),
      Sign(RefreshClaims(u.id), cfg.refreshSecret, cfg.refreshTtl, now))
  }

  /** `t` is a refresh token `generateTokens` issued for user `id`. */
  predicate IsRefreshTokenFor(cfg: JwtConfig, id: UserId, t: Token) {
    && t.Signed?
    && t.claims == RefreshClaims(id)
    && t.key == cfg.refreshSecret
    && t.expiresAt == t.issuedAt + cfg.refreshTtl
  }

  /** How a refresh token is bound to its record. `BcryptOfToken` is what
      the service does: bcrypt over the token's text, of which bcrypt reads
      the first 72 bytes. `BcryptOfDigest` is the correction: bcrypt over the
      SHA-256 digest of the token's text, which fits inside those 72 bytes. */
  datatype Binding = BcryptOfToken | BcryptOfDigest

  /** What the binding hands to bcrypt for a token. */
  function Bound(b: Binding, t: Token): Secret {
    match b
    case BcryptOfToken => Encoded(t)
    case BcryptOfDigest => Prehashed(t)
  }

  /** The stored binding of user `id` is null or the hash of one of its
      issued refresh tokens, under either binding. */
  predicate BindingIssued(cfg: JwtConfig, id: UserId, h: Option<Secret>) {
    || h.None?
    || (&& h.value.Bcrypt?
        && (h.value.preimage.Encoded? || h.value.preimage.Prehashed?)
        && IsRefreshTokenFor(cfg, id, h.value.preimage.token))
  }

  /** The invariant every transition keeps. */
  predicate Valid(s: Store, cfg: JwtConfig) {
    && WellFormed(s)
    && forall id :: id in s.users ==> BindingIssued(cfg, id, s.users[id].refreshTokenHash)
  }

  /** Bind a freshly issued refresh token to a record and save it. */
  function Rotate(s: Store, cfg: JwtConfig, b: Binding, d: UserDoc, now: int): (r: Result<(Store, TokenPair), StoreError>)
    requires Valid(s, cfg) && !EmailTakenByOther(s, d.user.id, d.user.email)
    requires d.user.id !in s.users || s.users[d.user.id].email == d.user.email
    ensures r.Ok? <==> NamesFit(d.user)
    ensures r.Err? ==> r.error == ValidationFailed
    ensures r.Ok? ==> var (s', p) := r.value;
      && Valid(s', cfg)
      && s'.users.Keys == s.users.Keys + {d.user.id}
      && s'.users[d.user.id] == PreSave(d).(refreshTokenHash := Some(Hash(Bound(b, p.refreshToken))))
      && (forall id :: id in s.users && id != d.user.id ==> s'.users[id] == s.users[id])
      && p == GenerateTokens(cfg, d.user, now)
  {
    var tokens := GenerateTokens(cfg, d.user, now);
    var d' := d.(user := d.user.(refreshTokenHash := Some(Hash(Bound(b, tokens.refreshToken)))));
    match Save(s, d')
    case Err(e) => Err(e)
    case Ok(s') => Ok((s', tokens))
  }

  // ---------------------------------------------------------------------
  // register
  // ---------------------------------------------------------------------

  /** `register(dto)`. `newId` is the `_id` MongoDB gives the new document.
      The email lookup and the new document both see the trimmed email; the
      names are trimmed as the document is built, so a name the form admits
      can still fail the schema's length validators at `save()`. */
  function Register(s: Store, cfg: JwtConfig, b: Binding, dto: RegisterInput, newId: UserId, now: int)
    : (r: Result<(Store, AuthResponse), AuthError>)
    requires Valid(s, cfg) && newId !in s.users
    ensures r.Err? <==> || (exists id :: id in s.users && s.users[id].email == Trim(dto.email))
                        || !NameFits(Trim(dto.firstName)) || !NameFits(Trim(dto.lastName))
    ensures (exists id :: id in s.users && s.users[id].email == Trim(dto.email)) ==> r == Err(EmailTaken)
    ensures r.Err? ==> r.error == EmailTaken || r.error == RecordInvalid
    ensures r.Ok? ==> var (s', resp) := r.value;
      && Valid(s', cfg)
      && s'.users.Keys == s.users.Keys + {newId}
      && (forall id :: id in s.users ==> s'.users[id] == s.users[id])
      && s'.users[newId].refreshTokenHash == Some(Hash(Bound(b, resp.tokens.refreshToken)))
      && s'.users[newId].passwordHash == Hash(Clear(dto.password))
      && s'.users[newId].firstName == Trim(dto.firstName)
      && s'.users[newId].lastName == Trim(dto.lastName)
      && s'.users[newId].email == Trim(dto.email)
      && (dto.phone.None? <==> s'.users[newId].phone.None?)
      && (dto.phone.Some? ==> s'.users[newId].phone == Some(Trim(dto.phone.value)))
      && s'.users[newId].isActive
      && s'.users[newId].role == dto.role.GetOr(Client)
      && resp.user == Profile(s'.users[newId])
      && resp.tokens == GenerateTokens(cfg, s'.users[newId], now)
  {
    if exists id :: id in s.users && s.users[id].email == Trim(dto.email) then Err(EmailTaken)
    else
      var doc := NewUserDoc(newId, dto.firstName, dto.lastName, dto.email, dto.password, dto.role, dto.phone);
      match Rotate(s, cfg, b, doc, now)
      case Err(_) => Err(RecordInvalid)
      case Ok((s', tokens)) => Ok((s', AuthResponse(tokens, Profile(s'.users[newId]))))
  }

  // ---------------------------------------------------------------------
  // login
  // ---------------------------------------------------------------------

  /** `login(dto)`: look the email up, refuse a disabled account, check the
      password, then rotate. */
  function Login(s: Store, cfg: JwtConfig, b: Binding, dto: LoginInput, now: int)
    : (r: Result<(Store, AuthResponse), AuthError>)
    requires Valid(s, cfg)
    ensures r.Ok? <==> exists id :: id in s.users && s.users[id].email == Trim(dto.email)
                          && s.users[id].isActive && ComparePassword(s.users[id], dto.password)
    ensures r.Err? ==> r.error == InvalidCredentials || r.error == AccountDisabled
    ensures r.Ok? ==> var (s', resp) := r.value;
      var u := resp.user;
      && Valid(s', cfg)
      && u.id in s.users && s.users[u.id].email == Trim(dto.email)
      && s.users[u.id].isActive && ComparePassword(s.users[u.id], dto.password)
      && s'.users == s.users[u.id := s.users[u.id].(refreshTokenHash := Some(Hash(Bound(b, resp.tokens.refreshToken))))]
      && resp.tokens == GenerateTokens(cfg, s.users[u.id], now)
      && u == Profile(s.users[u.id])
  {
    match FindByEmail(s, dto.email)
    case None => Err(InvalidCredentials)
    case Some(u) =>
      if !u.isActive then Err(AccountDisabled)
      else if !ComparePassword(u, dto.password) then Err(InvalidCredentials)
      else
        match Rotate(s, cfg, b, Loaded(u), now)
        case Err(_) => Err(InvalidCredentials)
        case Ok((s', tokens)) => Ok((s', AuthResponse(tokens, Profile(u))))
  }

  /** An unknown email and a wrong password are indistinguishable to the
      caller: the same error, the same message. */
  lemma LoginFailuresIndistinguishable(s: Store, cfg: JwtConfig, b: Binding, unknown: LoginInput, wrong: LoginInput, now: int)
    requires Valid(s, cfg)
    requires forall id :: id in s.users ==> s.users[id].email != Trim(unknown.email)
    requires exists id :: id in s.users && s.users[id].email == Trim(wrong.email)
               && s.users[id].isActive && !ComparePassword(s.users[id], wrong.password)
    ensures Login(s, cfg, b, unknown, now) == Err(InvalidCredentials)
    ensures Login(s, cfg, b, wrong, now) == Err(InvalidCredentials)
    ensures Message(Login(s, cfg, b, unknown, now).error) == Message(Login(s, cfg, b, wrong, now).error)
  {
    assert FindByEmail(s, unknown.email).None?;
    var u := FindByEmail(s, wrong.email).value;
    assert u.isActive && !ComparePassword(u, wrong.password);
  }

  /** The active check comes before the password check: a disabled account
      answers `AccountDisabled` whatever password is offered. */
  lemma LoginDisabledWhateverPassword(s: Store, cfg: JwtConfig, b: Binding, dto: LoginInput, now: int)
    requires Valid(s, cfg)
    requires exists id :: id in s.users && s.users[id].email == Trim(dto.email) && !s.users[id].isActive
    ensures Login(s, cfg, b, dto, now) == Err(AccountDisabled)
  {
  }

  // ---------------------------------------------------------------------
  // refresh
  // ---------------------------------------------------------------------

  /** The four conditions `refresh` checks, in order: signature and expiry
      under the refresh secret, the subject exists, its binding is not null,
      bcrypt accepts the presented token against the binding. */
  predicate RefreshAccepted(s: Store, cfg: JwtConfig, b: Binding, presented: Token, now: int) {
    && VerifyToken(presented, cfg.refreshSecret, now).Some?
    && presented.claims.sub in s.users
    && s.users[presented.claims.sub].refreshTokenHash.Some?
    && Compare(Bound(b, presented), s.users[presented.claims.sub].refreshTokenHash.value)
  }

  /** `refresh(refreshToken)`: every failure is the same `RefreshInvalid`;
      success rotates the binding and answers only the new pair. */
  function Refresh(s: Store, cfg: JwtConfig, b: Binding, presented: Token, now: int)
    : (r: Result<(Store, TokenPair), AuthError>)
    requires Valid(s, cfg)
    ensures r.Ok? <==> RefreshAccepted(s, cfg, b, presented, now)
    ensures r.Err? ==> r.error == RefreshInvalid
    ensures r.Ok? ==> var (s', p) := r.value;
      var id := presented.claims.sub;
      && Valid(s', cfg)
      && s'.users == s.users[id := s.users[id].(refreshTokenHash := Some(Hash(Bound(b, p.refreshToken))))]
      && p == GenerateTokens(cfg, s.users[id], now)
  {
    match VerifyToken(presented, cfg.refreshSecret, now)
    case None => Err(RefreshInvalid)
    case Some(claims) =>
      match FindById(s, claims.sub)
      case None => Err(RefreshInvalid)
      case Some(u) =>
        if u.refreshTokenHash.None? then Err(RefreshInvalid)
        else if !Compare(Bound(b, presented), u.refreshTokenHash.value) then Err(RefreshInvalid)
        else
          match Rotate(s, cfg, b, Loaded(u), now)
          case Err(_) => Err(RefreshInvalid)
          case Ok((s', tokens)) => Ok((s', tokens))
  }

  /** As written, the binding does not single out one token: while the
      record holds any binding made with `BcryptOfToken`, every unexpired
      token signed with the refresh secret for that user refreshes, because
      all of them agree on the 72 bytes bcrypt reads. */
  lemma {:induction false} StaleTokenRefreshes(s: Store, cfg: JwtConfig, id: UserId, current: Token, stale: Token, later: int)
    requires Valid(s, cfg) && id in s.users && |id| >= 19
    requires s.users[id].refreshTokenHash == Some(Hash(Encoded(current)))
    requires stale.Signed? && stale.claims.sub == id && stale.key == cfg.refreshSecret && later < stale.expiresAt
    ensures Refresh(s, cfg, BcryptOfToken, stale, later).Ok?
    ensures Refresh(s, cfg, BcryptOfToken, stale, later).value.1 == GenerateTokens(cfg, s.users[id], later)
  {
    SameSubjectSameWindow(stale, current);
  }

  /** With the digest binding, after a binding to `current` every other
      refresh token of that user is refused, at any instant. */
  lemma {:induction false} OnlyBoundTokenRefreshes(s: Store, cfg: JwtConfig, id: UserId, current: Token, stale: Token, later: int)
    requires Valid(s, cfg) && id in s.users
    requires s.users[id].refreshTokenHash == Some(Hash(Prehashed(current)))
    requires stale != current && stale.Signed? && stale.claims.sub == id
    ensures Refresh(s, cfg, BcryptOfDigest, stale, later) == Err(RefreshInvalid)
  {
    PrehashExact(stale, current);
  }

  /** Rotation on login, with the digest binding: once a login succeeds, any
      token for that user other than the refresh token it issued no longer
      refreshes. */
  lemma LoginRevokesEarlierRefresh(s: Store, cfg: JwtConfig, dto: LoginInput, now: int, stale: Token, later: int)
    requires Valid(s, cfg) && Login(s, cfg, BcryptOfDigest, dto, now).Ok?
    requires stale.Signed? && stale.claims.sub == Login(s, cfg, BcryptOfDigest, dto, now).value.1.user.id
    requires stale != Login(s, cfg, BcryptOfDigest, dto, now).value.1.tokens.refreshToken
    ensures Refresh(Login(s, cfg, BcryptOfDigest, dto, now).value.0, cfg, BcryptOfDigest, stale, later) == Err(RefreshInvalid)
  {
    var (s', resp) := Login(s, cfg, BcryptOfDigest, dto, now).value;
    OnlyBoundTokenRefreshes(s', cfg, resp.user.id, resp.tokens.refreshToken, stale, later);
  }

  /** Rotation on refresh, with the digest binding: re-presenting the spent
      token fails, provided the new token differs from it. */
  lemma RefreshRevokesPresented(s: Store, cfg: JwtConfig, presented: Token, now: int, later: int)
    requires Valid(s, cfg) && Refresh(s, cfg, BcryptOfDigest, presented, now).Ok?
    requires Refresh(s, cfg, BcryptOfDigest, presented, now).value.1.refreshToken != presented
    ensures Refresh(Refresh(s, cfg, BcryptOfDigest, presented, now).value.0, cfg, BcryptOfDigest, presented, later)
         == Err(RefreshInvalid)
  {
    var (s', p) := Refresh(s, cfg, BcryptOfDigest, presented, now).value;
    OnlyBoundTokenRefreshes(s', cfg, presented.claims.sub, p.refreshToken, presented, later);
  }

  /** When that proviso fails: the refresh payload is only `{sub}`, so the token
      a refresh issues is the presented token itself exactly when both were
      signed in the same second. The spent token then keeps working. With
      the binding as written, the presented token must be one the service
      issued; with the digest binding, bcrypt establishes that. */
  lemma RefreshFreshnessIsSameSecond(s: Store, cfg: JwtConfig, b: Binding, presented: Token, now: int)
    requires Valid(s, cfg) && Refresh(s, cfg, b, presented, now).Ok?
    requires b == BcryptOfDigest || IsRefreshTokenFor(cfg, presented.claims.sub, presented)
    ensures Refresh(s, cfg, b, presented, now).value.1.refreshToken == presented <==> presented.issuedAt == now
  {
    if b == BcryptOfDigest {
      PrehashExact(presented, s.users[presented.claims.sub].refreshTokenHash.value.preimage.token);
    }
  }

  // ---------------------------------------------------------------------
  // logout and verify
  // ---------------------------------------------------------------------

  /** `logout(userId)`: `findByIdAndUpdate(userId, {refreshTokenHash: null})`;
      an unknown id updates nothing and is not an error. */
  function Logout(s: Store, userId: UserId): (s': Store)
    ensures s'.users.Keys == s.users.Keys
    ensures userId in s.users ==> s'.users[userId] == s.users[userId].(refreshTokenHash := None)
    ensures forall id :: id in s.users && id != userId ==> s'.users[id] == s.users[id]
  {
    if userId in s.users then Store(s.users[userId := s.users[userId].(refreshTokenHash := None)]) else s
  }

  /** Logout keeps the invariant, is idempotent, and no refresh for that user
      succeeds afterwards. */
  lemma LogoutRevokes(s: Store, cfg: JwtConfig, b: Binding, userId: UserId, t: Token, later: int)
    requires Valid(s, cfg)
    requires t.Signed? && t.claims.sub == userId
    ensures Valid(Logout(s, userId), cfg)
    ensures Logout(Logout(s, userId), userId) == Logout(s, userId)
    ensures Refresh(Logout(s, userId), cfg, b, t, later) == Err(RefreshInvalid)
  {
  }

  /** `verify(token)`: the claims of a token signed with the access secret
      and not yet expired; any failure is `TokenInvalid`. The collection is not
      an argument: verification never consults the store. */
  function Verify(cfg: JwtConfig, token: Token, now: int): (r: Result<Claims, AuthError>)
    ensures r.Ok? <==> token.Signed? && token.key == cfg.accessSecret && now < token.expiresAt
    ensures r.Ok? ==> r.value == token.claims
    ensures r.Err? ==> r.error == TokenInvalid
  {
    match VerifyToken(token, cfg.accessSecret, now)
    case Some(c) => Ok(c)
    case None => Err(TokenInvalid)
  }

  /** A refresh token never passes as an access token when the two secrets
      differ, and an access token never refreshes. */
  lemma TokenClassesSeparate(s: Store, cfg: JwtConfig, b: Binding, u: User, now: int, later: int)
    requires Valid(s, cfg) && cfg.accessSecret != cfg.refreshSecret
    ensures Verify(cfg, GenerateTokens(cfg, u, now).refreshToken, later) == Err(TokenInvalid)
    ensures Refresh(s, cfg, b, GenerateTokens(cfg, u, now).accessToken, later) == Err(RefreshInvalid)
  {
  }

  /** Whoever registers can log in at once with the same email and password,
      under either binding: the login finds the new record and issues a
      pair stamped with the login's instant. */
  lemma RegisterThenLoginSucceeds(s: Store, cfg: JwtConfig, b: Binding, dto: RegisterInput, newId: UserId, t0: int, t1: int)
    requires Valid(s, cfg) && newId !in s.users
    requires forall id :: id in s.users ==> s.users[id].email != Trim(dto.email)
    requires NameFits(Trim(dto.firstName)) && NameFits(Trim(dto.lastName))
    ensures Register(s, cfg, b, dto, newId, t0).Ok?
    ensures var (s1, r1) := Register(s, cfg, b, dto, newId, t0).value;
      var l := Login(s1, cfg, b, LoginInput(dto.email, dto.password), t1);
      && l.Ok?
      && l.value.1.user.id == newId
      && r1.tokens == GenerateTokens(cfg, s1.users[newId], t0)
      && l.value.1.tokens == GenerateTokens(cfg, s1.users[newId], t1)
  {
    var (s1, r1) := Register(s, cfg, b, dto, newId, t0).value;
    assert s1.users[newId].email == Trim(dto.email) && s1.users[newId].isActive;
    assert ComparePassword(s1.users[newId], dto.password);
    var l := Login(s1, cfg, b, LoginInput(dto.email, dto.password), t1);
    assert l.Ok?;
    var u := l.value.1.user;
    assert s1.users[u.id].email == s1.users[newId].email;
  }

  /** The register-then-login scenario with the digest binding: the login
      issues a new refresh token, and the one registration issued no longer
      refreshes. */
  lemma RegisterThenLogin(s: Store, cfg: JwtConfig, dto: RegisterInput, newId: UserId, t0: int, t1: int, later: int)
    requires Valid(s, cfg) && newId !in s.users && t0 != t1
    requires forall id :: id in s.users ==> s.users[id].email != Trim(dto.email)
    requires NameFits(Trim(dto.firstName)) && NameFits(Trim(dto.lastName))
    ensures Register(s, cfg, BcryptOfDigest, dto, newId, t0).Ok?
    ensures var (s1, r1) := Register(s, cfg, BcryptOfDigest, dto, newId, t0).value;
      var l := Login(s1, cfg, BcryptOfDigest, LoginInput(dto.email, dto.password), t1);
      && l.Ok?
      && l.value.1.tokens.refreshToken != r1.tokens.refreshToken
      && Refresh(l.value.0, cfg, BcryptOfDigest, r1.tokens.refreshToken, later) == Err(RefreshInvalid)
  {
    RegisterThenLoginSucceeds(s, cfg, BcryptOfDigest, dto, newId, t0, t1);
    var (s1, r1) := Register(s, cfg, BcryptOfDigest, dto, newId, t0).value;
    LoginRevokesEarlierRefresh(s1, cfg, LoginInput(dto.email, dto.password), t1, r1.tokens.refreshToken, later);
  }

  /** The same scenario as the service is written: after the login, the
      token the registration issued still refreshes until it expires,
      although the login rotated the binding. An ObjectId in hexadecimal has
      24 characters. */
  lemma RegisterThenLoginAsWritten(s: Store, cfg: JwtConfig, dto: RegisterInput, newId: UserId, t0: int, t1: int, later: int)
    requires Valid(s, cfg) && newId !in s.users && |newId| == 24 && t0 != t1
    requires forall id :: id in s.users ==> s.users[id].email != Trim(dto.email)
    requires NameFits(Trim(dto.firstName)) && NameFits(Trim(dto.lastName))
    requires later < t0 + cfg.refreshTtl
    ensures Register(s, cfg, BcryptOfToken, dto, newId, t0).Ok?
    ensures var (s1, r1) := Register(s, cfg, BcryptOfToken, dto, newId, t0).value;
      var l := Login(s1, cfg, BcryptOfToken, LoginInput(dto.email, dto.password), t1);
      && l.Ok?
      && l.value.1.tokens.refreshToken != r1.tokens.refreshToken
      && Refresh(l.value.0, cfg, BcryptOfToken, r1.tokens.refreshToken, later).Ok?
  {
    RegisterThenLoginSucceeds(s, cfg, BcryptOfToken, dto, newId, t0, t1);
    var (s1, r1) := Register(s, cfg, BcryptOfToken, dto, newId, t0).value;
    var (s2, resp) := Login(s1, cfg, BcryptOfToken, LoginInput(dto.email, dto.password), t1).value;
    StaleTokenRefreshes(s2, cfg, newId, resp.tokens.refreshToken, r1.tokens.refreshToken, later);
  }

  // ---------------------------------------------------------------------
  // trimmed names
  // ---------------------------------------------------------------------

  /** The `trim` setter at work: a name registered with white space around
      it is stored and answered without it. */
  lemma PaddedNameStoredTrimmed(s: Store, cfg: JwtConfig, b: Binding, dto: RegisterInput, newId: UserId, now: int,
                                before: string, name: string, after: string)
    requires Valid(s, cfg) && newId !in s.users
    requires forall id :: id in s.users ==> s.users[id].email != Trim(dto.email)
    requires AllJsSpace(before) && AllJsSpace(after) && NameFits(name)
    requires !IsJsSpace(name[0]) && !IsJsSpace(name[|name| - 1])
    requires dto.firstName == before + name + after && NameFits(Trim(dto.lastName))
    ensures Register(s, cfg, b, dto, newId, now).Ok?
    ensures Register(s, cfg, b, dto, newId, now).value.1.user.firstName == name
  {
    TrimPadded(before, name, after);
  }

  /** A first name the registration form admits, one visible character
      after white space (such as `"  A"`), is one character once trimmed:
      the schema refuses it at `save()`, and registration fails although the
      email is free. */
  lemma FormAcceptsSaveRefuses(s: Store, cfg: JwtConfig, b: Binding, dto: RegisterInput, newId: UserId, now: int,
                               before: string, c: char)
    requires Valid(s, cfg) && newId !in s.users
    requires forall id :: id in s.users ==> s.users[id].email != Trim(dto.email)
    requires AllJsSpace(before) && 1 <= |before| < 50 && !IsJsSpace(c)
    requires dto.firstName == before + [c]
    ensures RegisterDto.NameAccepted(dto.firstName)
    ensures Register(s, cfg, b, dto, newId, now) == Err(RecordInvalid)
  {
    assert before + [c] == before + [c] + "";
    TrimPadded(before, [c], "");
  }
}

=== FILE: crypto.dfy ===
/** Stand-ins for the two foreign libraries of the identity authority:
    bcrypt (one-way hashing of passwords and refresh tokens) and JSON Web
    Tokens (signed, time-boxed claims).

    A token is the record of what was signed, with which key and when;
    verification accepts exactly the tokens signed with the given key that
    have not yet expired. Two tokens signed over the same claims with the
    same key at the same second are the same token, as with real JWTs whose
    only varying content is `iat`/`exp`. The text of a token is modelled up
    to its signature, because bcrypt reads only the first 72 bytes of its
    input: `bcrypt.compare(c, h)` holds exactly when `c` agrees on those
    bytes with the input `h` was computed from. Salts and cost factors are
    not modelled. */
module Crypto {
  import opened Wrappers
  import opened Roles
  import opened Strings
  import opened Encoding

  /** MongoDB `_id` of a user, as the hex string the tokens carry in `sub`. */
  type UserId = string

  /** Token payloads: the access claims `{sub, email, role}` and the refresh
      claims `{sub}` (auth-service/src/auth/auth.service.ts:236-245). */
  datatype Claims =
    | AccessClaims(sub: UserId, email: string, role: Role)
    | RefreshClaims(sub: UserId)

  /** A compact JWT. `Signed` is a token produced by `jwtService.signAsync`
      with `key`; `Forged` is any other text a client may present. */
  datatype Token =
    | Signed(claims: Claims, key: string, issuedAt: int, expiresAt: int)
    | Forged(text: string)

  // ---------------------------------------------------------------------
  // The text of a token
  // ---------------------------------------------------------------------

  /** The JOSE header of every token, `{"alg":"HS256","typ":"JWT"}`
      (HMAC-SHA256 is the signing default), in its base64url form
      `eyJhbGciOiJIUzI1NiIsInR5cCI6IkpXVCJ9`, as bytes. */
  const EncodedHeader: seq<Byte> := [
    0x65, 0x79, 0x4A, 0x68, 0x62, 0x47, 0x63, 0x69, 0x4F, 0x69, 0x4A, 0x49,
    0x55, 0x7A, 0x49, 0x31, 0x4E, 0x69, 0x49, 0x73, 0x49, 0x6E, 0x52, 0x35,
    0x63, 0x43, 0x49, 0x36, 0x49, 0x6B, 0x70, 0x58, 0x56, 0x43, 0x4A, 0x39]

  /** The start of every payload: the subject, the first claim the service
      puts in both payloads. */
  function SubjectLead(sub: UserId): string {
    "{\"sub\":\"" + Escape(sub)
  }

  /** The rest of the payload as `JSON.stringify` writes it: the closing quote
      of the subject, `email` and `role` for an access token, then the `iat`
      and `exp` that jsonwebtoken appends. */
  function PayloadTail(t: Token): string
    requires t.Signed?
  {
    "\""
    + (match t.claims
       case AccessClaims(_, email, role) => ",\"email\":" + Quote(email) + ",\"role\":" + Quote(Name(role))
       case RefreshClaims(_) => "")
    + ",\"iat\":" + IntToString(t.issuedAt) + ",\"exp\":" + IntToString(t.expiresAt) + "}"
  }

  function PayloadJson(t: Token): string
    requires t.Signed?
  {
    SubjectLead(t.claims.sub) + PayloadTail(t)
  }

  const Dot: Byte := 0x2E

  /** The bytes of a token up to its signature:
      base64url(header) `.` base64url(payload). */
  function SigningInput(t: Token): seq<Byte>
    requires t.Signed?
  {
    Encode(PayloadJson(t))
  }

  /** The signing input of a token with the given payload text. */
  function Encode(payload: string): seq<Byte> {
    EncodedHeader + [Dot] + Base64Url(Utf8(payload))
  }

  // ---------------------------------------------------------------------
  // bcrypt
  // ---------------------------------------------------------------------

  /** Anything the source hands to bcrypt: a clear-text password, the text of
      a token, the SHA-256 digest of a token's text (64 hexadecimal
      characters, assumed free of collisions), or an existing bcrypt hash
      (hashing a hash is possible and yields a different hash). */
  datatype Secret =
    | Clear(text: string)
    | Encoded(token: Token)
    | Prehashed(token: Token)
    | Bcrypt(preimage: Secret)

  /** bcrypt reads at most this many bytes of its input and ignores the rest. */
  const WindowSize: nat := 72

  function Head(bs: seq<Byte>): (h: seq<Byte>)
    ensures |h| <= WindowSize
  {
    if |bs| <= WindowSize then bs else bs[..WindowSize]
  }

  /** What bcrypt reads of an input. `Bytes` holds the first 72 bytes of a
      text. The model does not compute HMAC, SHA-256 or bcrypt output, so
      three kinds of input are kept symbolic: a token whose first 72 bytes
      reach into its signature, a SHA-256 digest, and a bcrypt hash. The last
      two are 64 and 60 characters long, so bcrypt reads them whole. */
  datatype Seen =
    | Bytes(bs: seq<Byte>)
    | ShortToken(t: Token)
    | Sha256Hex(digestOf: Token)
    | HashText(of: Seen)

  function Window(x: Secret): Seen {
    match x
    case Clear(text) => Bytes(Head(Utf8(text)))
    case Encoded(t) =>
      if t.Forged? then Bytes(Head(Utf8(t.text)))
      else if |SigningInput(t)| >= WindowSize then Bytes(SigningInput(t)[..WindowSize])
      else ShortToken(t)
    case Prehashed(t) => Sha256Hex(t)
    case Bcrypt(p) => HashText(Window(p))
  }

  /** `bcrypt.hash(x, 10)`. Salts and the cost factor are not modelled; the
      hash keeps its input, of which comparison looks only at the window. */
  function Hash(x: Secret): Secret {
    Bcrypt(x)
  }

  /** `bcrypt.compare(candidate, digest)`: the digest is a bcrypt hash of an
      input whose first 72 bytes are those of the candidate. */
  predicate Compare(candidate: Secret, digest: Secret) {
    digest.Bcrypt? && Window(candidate) == Window(digest.preimage)
  }

  /** A hash matches exactly the inputs that agree with its own input on the
      bytes bcrypt reads. */
  lemma CompareIffSameWindow(candidate: Secret, original: Secret)
    ensures Compare(candidate, Hash(original)) <==> Window(candidate) == Window(original)
  {
  }

  /** For a text shorter than the window, comparison is exact: only the text
      itself matches its hash. */
  lemma {:induction false} ShortTextExact(candidate: string, original: string)
    requires |Utf8(original)| < WindowSize
    ensures Compare(Clear(candidate), Hash(Clear(original))) <==> candidate == original
  {
    if Compare(Clear(candidate), Hash(Clear(original))) {
      assert Head(Utf8(candidate)) == Utf8(original);
      assert |Utf8(candidate)| <= WindowSize;
      Utf8Injective(candidate, original);
    }
  }

  /** A text of 72 bytes or more matches every extension of it. */
  lemma {:induction false} LongTextTruncated(original: string, extra: string)
    requires |Utf8(original)| >= WindowSize
    ensures Compare(Clear(original + extra), Hash(Clear(original)))
  {
    Utf8Append(original, extra);
    assert Utf8(original + extra)[..WindowSize] == Utf8(original)[..WindowSize];
  }

  /** Comparing SHA-256 digests of tokens is exact. */
  lemma PrehashExact(candidate: Token, original: Token)
    ensures Compare(Prehashed(candidate), Hash(Prehashed(original))) <==> candidate == original
  {
  }

  /** Any two signed tokens about the same subject agree on the first 72
      bytes of their text when the subject has at least 19 characters (the
      hexadecimal form of a MongoDB ObjectId has 24): the 37 bytes of header
      and dot, then 35 characters of base64url that encode only `{"sub":"`
      and the start of the subject. Their bcrypt windows are the same. */
  lemma {:induction false} SameSubjectSameWindow(t1: Token, t2: Token)
    requires t1.Signed? && t2.Signed? && t1.claims.sub == t2.claims.sub
    requires |t1.claims.sub| >= 19
    ensures Window(Encoded(t1)) == Window(Encoded(t2))
  {
    var lead := SubjectLead(t1.claims.sub);
    assert |Utf8(lead)| >= 27;
    SameLeadSameStart(lead, PayloadTail(t1), PayloadTail(t2));
  }

  /** `SameSubjectSameWindow` for any two payloads that share 27 leading
      bytes. */
  lemma {:induction false} SameLeadSameStart(lead: string, tail1: string, tail2: string)
    requires |Utf8(lead)| >= 27
    ensures |Encode(lead + tail1)| >= WindowSize && |Encode(lead + tail2)| >= WindowSize
    ensures Encode(lead + tail1)[..WindowSize] == Encode(lead + tail2)[..WindowSize]
  {
    EncodedStart(lead, tail1);
    EncodedStart(lead, tail2);
  }

  /** The first 72 bytes of a signing input fixed by the header and 27
      leading bytes of the payload. */
  function Start(lead: string): (r: seq<Byte>)
    requires |Utf8(lead)| >= 27
    ensures |r| == WindowSize
  {
    (EncodedHeader + [Dot] + Base64Url(Utf8(lead)[..27]))[..WindowSize]
  }

  /** A payload that begins with `lead` has the signing input `Start(lead)`
      in its first 72 bytes. */
  lemma {:induction false} EncodedStart(lead: string, tail: string)
    requires |Utf8(lead)| >= 27
    ensures |Encode(lead + tail)| >= WindowSize
    ensures Encode(lead + tail)[..WindowSize] == Start(lead)
  {
    EncodedPrefix(EncodedHeader, Dot, lead, tail);
  }

  /** `jwtService.signAsync(claims, {secret: key, expiresIn: ttl})` at the
      instant `now` (whole seconds, as `iat` and `exp` are). */
  function Sign(claims: Claims, key: string, ttl: nat, now: int): Token {
    Signed(claims, key, now, now + ttl)
  }

  /** `jwtService.verify(token, {secret: key})` at instant `now`: the claims of
      a token signed with `key` whose `exp` is still ahead (jsonwebtoken rejects
      once `now >= exp`); `None` for a bad signature, malformed text or an
      expired token. */
  function VerifyToken(t: Token, key: string, now: int): Option<Claims> {
    if t.Signed? && t.key == key && now < t.expiresAt then Some(t.claims) else None
  }

  /** A signed token verifies with its own key, with its claims, for exactly
      its time to live and no longer. */
  lemma SignThenVerify(claims: Claims, key: string, ttl: nat, now: int, later: int)
    ensures VerifyToken(Sign(claims, key, ttl, now), key, later) == Some(claims)
        <==> later < now + ttl
  {
  }

  /** No key other than the signing key accepts a token. */
  lemma WrongKeyRejected(claims: Claims, key: string, other: string, ttl: nat, now: int, later: int)
    requires other != key
    ensures VerifyToken(Sign(claims, key, ttl, now), other, later).None?
  {
  }
}

=== FILE: encoding.dfy ===
/** The byte-level encodings a compact JSON Web Token is made of: the UTF-8
    encoding of text, base64url without padding, and the quoting of JSON
    strings. They are needed to know which bytes of a token bcrypt reads. */
module Encoding {

  newtype Byte = b: int | 0 <= b < 256

  // ---------------------------------------------------------------------
  // UTF-8
  // ---------------------------------------------------------------------

  /** The UTF-8 encoding of one Unicode scalar value: one to four bytes,
      the last ones carrying six bits each. */
  function Utf8Char(c: char): (bs: seq<Byte>)
    ensures 1 <= |bs| <= 4
  {
    var n := c as int;
    var x := n / 64;
    var y := x / 64;
    if n < 0x80 then [n as Byte]
    else if n < 0x800 then [(0xC0 + x) as Byte, (0x80 + n % 64) as Byte]
    else if n < 0x1_0000 then
      [(0xE0 + y) as Byte, (0x80 + x % 64) as Byte, (0x80 + n % 64) as Byte]
    else
      [(0xF0 + y / 64) as Byte, (0x80 + y % 64) as Byte, (0x80 + x % 64) as Byte, (0x80 + n % 64) as Byte]
  }

  /** The UTF-8 encoding of a string, as `Buffer.from(s, 'utf8')` gives it. */
  function Utf8(s: string): (bs: seq<Byte>)
    ensures |bs| >= |s|
  {
    if |s| == 0 then [] else Utf8Char(s[0]) + Utf8(s[1..])
  }

  /** The number of bytes a character takes, read off its first byte. */
  function SequenceLength(lead: Byte): nat {
    if lead < 0x80 then 1 else if lead < 0xE0 then 2 else if lead < 0xF0 then 3 else 4
  }

  /** The scalar value a well-formed encoded character carries. */
  function DecodeChar(bs: seq<Byte>): int
    requires 1 <= |bs| <= 4
  {
    var b0 := bs[0] as int;
    if |bs| == 1 then b0
    else
      var last := bs[|bs| - 1] as int - 0x80;
      if |bs| == 2 then (b0 - 0xC0) * 64 + last
      else
        var b1 := bs[1] as int - 0x80;
        if |bs| == 3 then (b0 - 0xE0) * 4096 + b1 * 64 + last
        else (b0 - 0xF0) * 262144 + b1 * 4096 + (bs[2] as int - 0x80) * 64 + last
  }

  /** Each character's encoding announces its own length and decodes back to
      the character. */
  lemma Utf8CharDecodes(c: char)
    ensures SequenceLength(Utf8Char(c)[0]) == |Utf8Char(c)|
    ensures DecodeChar(Utf8Char(c)) == c as int
  {
    var n := c as int;
    if n < 0x80 {
    } else if n < 0x800 {
      TwoBytesDecode(c);
    } else if n < 0x1_0000 {
      ThreeBytesDecode(c);
    } else {
      FourBytesDecode(c);
    }
  }

  lemma TwoBytesDecode(c: char)
    requires 0x80 <= c as int < 0x800
    ensures DecodeChar(Utf8Char(c)) == c as int
  {
    var n := c as int;
    assert n == n / 64 * 64 + n % 64;
  }

  lemma ThreeBytesDecode(c: char)
    requires 0x800 <= c as int < 0x1_0000
    ensures DecodeChar(Utf8Char(c)) == c as int
  {
    var n := c as int;
    var x := n / 64;
    assert n == x * 64 + n % 64;
    assert x == x / 64 * 64 + x % 64;
  }

  lemma FourBytesDecode(c: char)
    requires 0x1_0000 <= c as int
    ensures DecodeChar(Utf8Char(c)) == c as int
  {
    var n := c as int;
    var x := n / 64;
    var y := x / 64;
    assert n == x * 64 + n % 64;
    assert x == y * 64 + x % 64;
    assert y == y / 64 * 64 + y % 64;
  }

  /** Encoding distributes over concatenation. */
  lemma {:induction false} Utf8Append(a: string, b: string)
    ensures Utf8(a + b) == Utf8(a) + Utf8(b)
    decreases |a|
  {
    if |a| > 0 {
      assert (a + b)[0] == a[0];
      assert (a + b)[1..] == a[1..] + b;
      Utf8Append(a[1..], b);
    } else {
      assert a + b == b;
    }
  }

  /** Different strings have different encodings. */
  lemma {:induction false} Utf8Injective(a: string, b: string)
    requires Utf8(a) == Utf8(b)
    ensures a == b
    decreases |a|
  {
    if |a| > 0 {
      Utf8CharDecodes(a[0]);
      Utf8CharDecodes(b[0]);
      var n := |Utf8Char(a[0])|;
      assert Utf8(a)[0] == Utf8Char(a[0])[0];
      assert Utf8(b)[0] == Utf8Char(b[0])[0];
      assert Utf8(a)[..n] == Utf8Char(a[0]);
      assert Utf8(b)[..n] == Utf8Char(b[0]);
      assert a[0] == b[0];
      assert Utf8(a[1..]) == Utf8(a)[n..] == Utf8(b)[n..] == Utf8(b[1..]);
      Utf8Injective(a[1..], b[1..]);
    }
  }

  // ---------------------------------------------------------------------
  // base64url
  // ---------------------------------------------------------------------

  /** The character for a six-bit value in the URL-safe alphabet of section
      5 of RFC 4648: `A`-`Z`, `a`-`z`, `0`-`9`, then `-` and `_`, as a byte. */
  function Digit64(i: int): (b: Byte)
    requires 0 <= i < 64
    ensures b < 0x80
  {
    (if i < 26 then 'A' as int + i
     else if i < 52 then 'a' as int + (i - 26)
     else if i < 62 then '0' as int + (i - 52)
     else if i == 62 then '-' as int
     else '_' as int) as Byte
  }

  /** Three bytes as four characters. */
  function Quad(x: Byte, y: Byte, z: Byte): (r: seq<Byte>)
    ensures |r| == 4
  {
    var b0, b1, b2 := x as int, y as int, z as int;
    [Digit64(b0 / 4), Digit64(b0 % 4 * 16 + b1 / 16), Digit64(b1 % 16 * 4 + b2 / 64), Digit64(b2 % 64)]
  }

  /** Unpadded base64url, as a JWT writes its header and payload: every
      three bytes become four characters, a trailing one or two bytes become
      two or three characters. The result is ASCII, given as its bytes. */
  function Base64Url(bs: seq<Byte>): (r: seq<Byte>)
    ensures |bs| % 3 == 0 ==> |r| == |bs| / 3 * 4
    ensures |r| >= |bs| / 3 * 4
    decreases |bs|
  {
    if |bs| == 0 then []
    else
      var b0 := bs[0] as int;
      if |bs| == 1 then [Digit64(b0 / 4), Digit64(b0 % 4 * 16)]
      else
        var b1 := bs[1] as int;
        if |bs| == 2 then [Digit64(b0 / 4), Digit64(b0 % 4 * 16 + b1 / 16), Digit64(b1 % 16 * 4)]
        else Quad(bs[0], bs[1], bs[2]) + Base64Url(bs[3..])
  }

  /** Twenty-seven bytes, the size of a JWT header, take thirty-six
      characters. */
  lemma Base64UrlLength(bs: seq<Byte>)
    requires |bs| == 27
    ensures |Base64Url(bs)| == 36
  {
  }

  /** A block of whole three-byte groups is encoded on its own: what follows
      it does not change its characters. */
  lemma {:induction false} Base64UrlAppend(a: seq<Byte>, b: seq<Byte>)
    requires |a| % 3 == 0
    ensures Base64Url(a + b) == Base64Url(a) + Base64Url(b)
    decreases |a|
  {
    if |a| > 0 {
      assert (a + b)[0] == a[0] && (a + b)[1] == a[1] && (a + b)[2] == a[2];
      assert (a + b)[3..] == a[3..] + b;
      Base64UrlAppend(a[3..], b);
    } else {
      assert a + b == b;
    }
  }

  /** Text that starts with at least 27 bytes of `lead`, encoded after a
      36-byte header and a separator, has its first 72 bytes fixed by the
      header and the first 27 bytes of `lead`: whatever follows is encoded
      from the 74th byte on. */
  lemma {:induction false} EncodedPrefix(header: seq<Byte>, sep: Byte, lead: string, tail: string)
    requires |header| == 36 && |Utf8(lead)| >= 27
    ensures |Utf8(lead + tail)| >= 27
    ensures (header + [sep] + Base64Url(Utf8(lead + tail)))[..72]
         == (header + [sep] + Base64Url(Utf8(lead)[..27]))[..72]
  {
    var block := Utf8(lead)[..27];
    var rest := Utf8(lead)[27..] + Utf8(tail);
    Utf8Append(lead, tail);
    assert Utf8(lead + tail) == block + rest;
    Base64UrlAppend(block, rest);
    Base64UrlLength(block);
    var start := header + [sep] + Base64Url(block);
    assert header + [sep] + Base64Url(Utf8(lead + tail)) == start + Base64Url(rest);
    PrefixOfAppend(start, Base64Url(rest), 72);
  }

  /** A prefix no longer than the first part of a concatenation lies in that
      part. */
  lemma PrefixOfAppend<T>(a: seq<T>, b: seq<T>, k: nat)
    requires k <= |a|
    ensures (a + b)[..k] == a[..k]
  {
  }

  // ---------------------------------------------------------------------
  // JSON strings
  // ---------------------------------------------------------------------

  /** `JSON.stringify` of one character inside a string literal: the quote,
      the backslash and the control characters are escaped. */
  function EscapeChar(c: char): (r: string)
    ensures |r| >= 1
  {
    if c == '"' then "\\\""
    else if c == '\\' then "\\\\"
    else if c == '\U{8}' then "\\b"
    else if c == '\U{C}' then "\\f"
    else if c == '\n' then "\\n"
    else if c == '\r' then "\\r"
    else if c == '\t' then "\\t"
    else if (c as int) < 0x20 then "\\u00" + [HexDigit((c as int) / 16), HexDigit((c as int) % 16)]
    else [c]
  }

  function HexDigit(d: int): char
    requires 0 <= d < 16
  {
    "0123456789abcdef"[d]
  }

  /** The characters of a string literal between its quotes. */
  function Escape(s: string): (r: string)
    ensures |r| >= |s|
  {
    if |s| == 0 then "" else EscapeChar(s[0]) + Escape(s[1..])
  }

  /** `JSON.stringify(s)` for a string. */
  function Quote(s: string): string {
    "\"" + Escape(s) + "\""
  }
}

=== FILE: guards.dfy ===
/** The two global guards of the gateway, applied in order to every inbound
    request: authentication (gateway/src/common/guards/jwt-auth.guard.ts)
    and role authorisation (gateway/src/common/guards/roles.guard.ts).

    The remote `auth-verify` call is a function parameter whose `None`
    stands for every way the call can fail: rejection by the identity
    authority, a transport error, a timeout, an empty reply. */
module Guards {
  import opened Wrappers
  import opened Strings
  import opened Roles

  /** What the `@Public()` and `@Roles(...)` decorators left on the handler
      method and on its controller class. */
  datatype RouteMeta = RouteMeta(
    handlerPublic: Option<bool>, classPublic: Option<bool>,
    handlerRoles: Option<seq<string>>, classRoles: Option<seq<string>>)

  /** `reflector.getAllAndOverride(key, [handler, class])`: the first of the
      two that is defined. */
  function GetAllAndOverride<T>(handler: Option<T>, cls: Option<T>): (r: Option<T>)
    ensures handler.Some? ==> r == handler
    ensures handler.None? ==> r == cls
  {
    if handler.Some? then handler else cls
  }

  /** The claims the identity authority returns, as the gateway types them. */
  datatype Payload = Payload(sub: string, email: Option<string>, role: Option<string>)

  /** The parts of an Express request the guards read and write. */
  datatype Request = Request(authorization: Option<string>, user: Option<Payload>)

  /** Why a guard stops a request: 401 with a message, or 403. */
  datatype Denial = Unauthorized(message: string) | Forbidden

  const MissingToken: string := "Token manquant"
  const BadToken: string := "Token invalide ou expiré"

  // ---------------------------------------------------------------------
  // bearer header
  // ---------------------------------------------------------------------

  /** `extractTokenFromHeader`: no header (or an empty one) gives nothing;
      otherwise split on ' ' and return the second piece when the first is
      exactly `Bearer`. Pieces after the second are ignored. */
  function ExtractToken(header: Option<string>): Option<string> {
    if header.None? || header.value == "" then None
    else
      var parts := Split(header.value, ' ');
      if parts[0] == "Bearer" && |parts| >= 2 then Some(parts[1]) else None
  }

  /** `h` reads `Bearer`, one space, then `token` up to the next space or the
      end of the header. */
  predicate BearerForm(h: string, token: string) {
    var n := |"Bearer "| + |token|;
    && n <= |h|
    && h[..n] == "Bearer " + token
    && ' ' !in token
    && (n == |h| || h[n] == ' ')
  }

  lemma {:induction false} SplitFirstPiece(a: string, b: string)
    requires ' ' !in a && (b == "" || b[0] == ' ')
    ensures Split(a + b, ' ')[0] == a
    decreases |a|
  {
    if |a| == 0 {
      assert a + b == b;
    } else {
      assert (a + b)[1..] == a[1..] + b;
      assert ' ' !in a[1..] by {
        forall k | 0 <= k < |a[1..]| ensures a[1..][k] != ' ' { assert a[1..][k] == a[k + 1]; }
      }
      SplitFirstPiece(a[1..], b);
      assert a == [a[0]] + a[1..];
    }
  }

  /** The header parser returns `token` exactly when the header has the
      bearer form for it. */
  lemma ExtractTokenIffBearerForm(h: string, token: string)
    ensures ExtractToken(Some(h)) == Some(token) <==> BearerForm(h, token)
  {
    if ExtractToken(Some(h)) == Some(token) {
      var parts := Split(h, ' ');
      JoinSplit(h, ' ');
      var rest := if |parts| == 2 then "" else " " + Join(parts[2..], ' ');
      assert Join(parts[1..], ' ') == parts[1] + rest;
      assert h == "Bearer " + token + rest;
    }
    if BearerForm(h, token) {
      var rest := h[|"Bearer "| + |token|..];
      assert h == h[..|"Bearer "| + |token|] + rest;
      assert h == "Bearer" + [' '] + (token + rest);
      SplitAfterPiece("Bearer", ' ', token + rest);
      SplitFirstPiece(token, rest);
    }
  }

  /** The degenerate headers: `Bearer` alone gives no token, `Bearer ` gives an
      empty one, and a lower-case scheme gives none. */
  lemma ExtractTokenEdgeCases()
    ensures ExtractToken(Some("Bearer")) == None
    ensures ExtractToken(Some("Bearer ")) == Some("")
    ensures ExtractToken(Some("bearer abc")) == None
  {
    BareScheme();
    EmptyToken();
    LowerCaseScheme();
  }

  lemma BareScheme()
    ensures ExtractToken(Some("Bearer")) == None
  {
    SplitNoSeparator("Bearer", ' ');
  }

  lemma EmptyToken()
    ensures ExtractToken(Some("Bearer ")) == Some("")
  {
    ExtractTokenIffBearerForm("Bearer ", "");
    assert "Bearer "[..7] == "Bearer " + "";
  }

  lemma LowerCaseScheme()
    ensures ExtractToken(Some("bearer abc")) == None
  {
    var h := "bearer abc";
    assert h == "bearer" + [' '] + "abc";
    SplitAfterPiece("bearer", ' ', "abc");
    assert Split(h, ' ')[0] == "bearer";
    assert "bearer" != "Bearer" by { assert "bearer"[0] != "Bearer"[0]; }
  }

  // ---------------------------------------------------------------------
  // JwtAuthGuard
  // ---------------------------------------------------------------------

  predicate IsPublic(meta: RouteMeta) {
    GetAllAndOverride(meta.handlerPublic, meta.classPublic) == Some(true)
  }

  /** `JwtAuthGuard.canActivate`: `Ok` is `return true` with the request as
      the guard leaves it. */
  function JwtCanActivate(meta: RouteMeta, req: Request, verify: string -> Option<Payload>)
    : (r: Result<Request, Denial>)
    ensures IsPublic(meta) ==> r == Ok(req)
    ensures (!IsPublic(meta) && (ExtractToken(req.authorization).None? || ExtractToken(req.authorization) == Some("")))
      ==> r == Err(Unauthorized(MissingToken))
    ensures r.Ok? && !IsPublic(meta) ==>
      && ExtractToken(req.authorization).Some?
      && verify(ExtractToken(req.authorization).value).Some?
      && r.value == req.(user := verify(ExtractToken(req.authorization).value))
    ensures (!IsPublic(meta) && ExtractToken(req.authorization).Some? && ExtractToken(req.authorization).value != "")
      ==> var v := verify(ExtractToken(req.authorization).value);
        && (v.Some? ==> r == Ok(req.(user := v)))
        && (v.None? ==> r == Err(Unauthorized(BadToken)))
    ensures r.Err? ==> r.error == Unauthorized(MissingToken) || r.error == Unauthorized(BadToken)
  {
    if IsPublic(meta) then Ok(req)
    else
      match ExtractToken(req.authorization)
      case None => Err(Unauthorized(MissingToken))
      case Some(token) =>
        if token == "" then Err(Unauthorized(MissingToken))
        else
          match verify(token)
          case None => Err(Unauthorized(BadToken))
          case Some(payload) => Ok(req.(user := Some(payload)))
  }

  /** A public route passes whatever the header and without consulting the
      identity authority: any two verifiers give the same answer. */
  lemma PublicRouteSkipsVerify(meta: RouteMeta, req: Request, v1: string -> Option<Payload>, v2: string -> Option<Payload>)
    requires IsPublic(meta)
    ensures JwtCanActivate(meta, req, v1) == JwtCanActivate(meta, req, v2) == Ok(req)
  {
  }

  /** Fail closed: on a protected route, a failed verification is always a
      401 and never a pass. */
  lemma VerifyFailureDenies(meta: RouteMeta, req: Request, verify: string -> Option<Payload>)
    requires !IsPublic(meta)
    requires ExtractToken(req.authorization).Some? && ExtractToken(req.authorization).value != ""
    requires verify(ExtractToken(req.authorization).value).None?
    ensures JwtCanActivate(meta, req, verify) == Err(Unauthorized(BadToken))
  {
  }

  // ---------------------------------------------------------------------
  // RolesGuard
  // ---------------------------------------------------------------------

  /** `user?.role ?? ''`. */
  function RoleOf(req: Request): string {
    if req.user.Some? && req.user.value.role.Some? then req.user.value.role.value else ""
  }

  /** `RolesGuard.canActivate`: no or an empty list of roles lets every request
      through; otherwise the user's role must literally be in the list.
      `RolesDecideByRole` states what this means in terms of roles. */
  function RolesCanActivate(meta: RouteMeta, req: Request): bool {
    var required := GetAllAndOverride(meta.handlerRoles, meta.classRoles);
    if required.None? || |required.value| == 0 then true
    else RoleOf(req) in required.value
  }

  /** The roles guard in terms of roles, for a route whose `@Roles(...)`
      lists the names of `rs` and a user whose token carries the name of `r`:
      no list or an empty one lets everybody through; a non-empty list lets
      the user through exactly when `r` is among `rs`, and refuses a request
      that reached it without a user. */
  lemma RolesDecideByRole(meta: RouteMeta, req: Request, rs: seq<Role>, r: Role)
    ensures var required := GetAllAndOverride(meta.handlerRoles, meta.classRoles);
      required.None? || required == Some([]) ==> RolesCanActivate(meta, req)
    ensures var required := GetAllAndOverride(meta.handlerRoles, meta.classRoles);
      required == Some(Names(rs)) && |rs| > 0 && req.user.Some? && req.user.value.role == Some(Name(r))
      ==> (RolesCanActivate(meta, req) <==> r in rs)
    ensures var required := GetAllAndOverride(meta.handlerRoles, meta.classRoles);
      required == Some(Names(rs)) && |rs| > 0 && req.user.None? ==> !RolesCanActivate(meta, req)
  {
    var required := GetAllAndOverride(meta.handlerRoles, meta.classRoles);
    if required == Some(Names(rs)) && |rs| > 0 {
      NameListed(r, rs);
      NoEmptyName(rs);
    }
  }

  /** No role's name is the empty string, the role of a request without a
      user. */
  lemma NoEmptyName(rs: seq<Role>)
    ensures "" !in Names(rs)
  {
    forall i | 0 <= i < |rs|
      ensures Names(rs)[i] != ""
    {
      assert Names(rs)[i] == Name(rs[i]);
      assert |Name(rs[i])| > 0;
    }
  }

  /** No hierarchy: a Client is refused by a route for Manager, Owner and
      Admin, although the documented seniority puts them above it. */
  lemma ClientNotPromoted(meta: RouteMeta, req: Request)
    requires meta.handlerRoles == Some(["Manager", "Owner", "Admin"])
    requires req.user.Some? && req.user.value.role == Some("Client")
    ensures !RolesCanActivate(meta, req)
  {
  }

  /** A request without a user has role '' and is refused by any non-empty
      list that does not name ''. */
  lemma MissingUserRefused(meta: RouteMeta, req: Request)
    requires req.user.None?
    requires meta.handlerRoles.Some? && |meta.handlerRoles.value| > 0 && "" !in meta.handlerRoles.value
    ensures !RolesCanActivate(meta, req)
  {
  }

  // ---------------------------------------------------------------------
  // both guards
  // ---------------------------------------------------------------------

  /** The two global guards in registration order; a `false` from the roles
      guard becomes 403. */
  function Gate(meta: RouteMeta, req: Request, verify: string -> Option<Payload>): (r: Result<Request, Denial>)
    ensures r.Ok? <==> JwtCanActivate(meta, req, verify).Ok? && RolesCanActivate(meta, JwtCanActivate(meta, req, verify).value)
    ensures r.Ok? ==> r == JwtCanActivate(meta, req, verify)
    ensures JwtCanActivate(meta, req, verify).Ok? && r.Err? ==> r.error == Forbidden
  {
    match JwtCanActivate(meta, req, verify)
    case Err(e) => Err(e)
    case Ok(req') => if RolesCanActivate(meta, req') then Ok(req') else Err(Forbidden)
  }

  /** A public route that also lists roles refuses everybody: the
      authentication guard lets it through without setting a user, and the
      roles guard then sees role ''. */
  lemma PublicWithRolesRefused(meta: RouteMeta, req: Request, verify: string -> Option<Payload>)
    requires IsPublic(meta) && req.user.None?
    requires meta.handlerRoles.Some? && |meta.handlerRoles.value| > 0 && "" !in meta.handlerRoles.value
    ensures Gate(meta, req, verify) == Err(Forbidden)
  {
  }
}

=== FILE: orders.dfy ===
/** The order service (order-service/src/orders/orders.service.ts) over an
    in-memory `orders` collection kept in creation order: order-number
    generation, creation, the listing filters, lookup by number, the update
    query builder and the status change with its append-only history.

    The current date is a parameter; timestamps are not modelled. */
module Orders {
  import opened Wrappers
  import opened Strings

  /** The values the schema's `status` enum lists
      (order-service/src/orders/schemas/order.schema.ts). */
  datatype OrderStatus = Pending | Confirmed | Processing | Shipped | Delivered | Cancelled | Deleted

  function StatusName(st: OrderStatus): string {
    match st
    case Pending => "PENDING"
    case Confirmed => "CONFIRMED"
    case Processing => "PROCESSING"
    case Shipped => "SHIPPED"
    case Delivered => "DELIVERED"
    case Cancelled => "CANCELLED"
    case Deleted => "DELETED"
  }

  /** Amounts are copied, never computed, so their representation is immaterial. */
  datatype Item = Item(productId: string, productName: string, quantity: real, unitPrice: real, notes: Option<string>)

  datatype Pricing = Pricing(subtotal: Option<real>, discount: Option<real>, total: Option<real>)

  datatype HistoryEntry = HistoryEntry(status: string, updatedBy: string)

  /** A stored order. `status` is a plain string: `findOneAndUpdate` runs no
      schema validators, so `updateStatus` stores whatever it is given. */
  datatype Order = Order(
    orderNumber: string,
    customerId: Option<string>,
    ressourceid: Option<string>,
    items: seq<Item>,
    pricing: Option<Pricing>,
    status: string,
    notes: Option<string>,
    statusHistory: seq<HistoryEntry>)

  /** `Partial<Order>`: what a caller of `createOrder` may supply. */
  datatype OrderDraft = OrderDraft(
    orderNumber: Option<string>,
    customerId: Option<string>,
    ressourceid: Option<string>,
    items: Option<seq<Item>>,
    pricing: Option<Pricing>,
    status: Option<string>,
    notes: Option<string>,
    statusHistory: Option<seq<HistoryEntry>>)

  datatype OrderError =
    | NotFound(message: string)
    | DuplicateOrderNumber(orderNumber: string)
    | PathConflict(path: string)
    | NegativeSkip

  /** The calendar date `new Date()` reads: month 1-12, day 1-31. */
  datatype Date = Date(year: nat, month: nat, day: nat)

  // ---------------------------------------------------------------------
  // order numbers
  // ---------------------------------------------------------------------

  /** `ORD-` + year + two-digit month + two-digit day. */
  function DatePrefix(d: Date): (p: string)
    ensures StartsWith(p, "ORD-") && AllDigits(p[4..]) && |p| >= 4 + 5
  {
    var y := ToDecimal(d.year);
    var m := PadStart(ToDecimal(d.month), 2, '0');
    var dd := PadStart(ToDecimal(d.day), 2, '0');
    PaddedDigits(ToDecimal(d.month), 2);
    PaddedDigits(ToDecimal(d.day), 2);
    DigitsConcat(y, m, dd);
    PrefixParts("ORD-", y + m + dd);
    "ORD-" + (y + m + dd)
  }

  /** The prefix reads back as the date: for any month and day below one
      hundred (every calendar date), the year is the digits between `ORD-` and
      the last four, the month the next two, the day the last two. */
  lemma DatePrefixDecodes(d: Date)
    ensures d.month < 100 && d.day < 100 ==>
      var p := DatePrefix(d);
      && |p| == 8 + |ToDecimal(d.year)|
      && AllDigits(p[4..|p| - 4]) && DecimalValue(p[4..|p| - 4]) == d.year
      && AllDigits(p[|p| - 4..|p| - 2]) && DecimalValue(p[|p| - 4..|p| - 2]) == d.month
      && AllDigits(p[|p| - 2..]) && DecimalValue(p[|p| - 2..]) == d.day
  {
    if d.month < 100 && d.day < 100 {
      DatePrefixParts(d);
      DecimalRoundTrip(d.year);
      TwoDigitPart(d.month);
      TwoDigitPart(d.day);
      PrefixDecodes(DatePrefix(d), ToDecimal(d.year), PadStart(ToDecimal(d.month), 2, '0'),
                    PadStart(ToDecimal(d.day), 2, '0'), d.year, d.month, d.day);
    }
  }

  lemma DatePrefixParts(d: Date)
    ensures DatePrefix(d) == "ORD-" + (ToDecimal(d.year) + PadStart(ToDecimal(d.month), 2, '0') + PadStart(ToDecimal(d.day), 2, '0'))
  {
  }

  lemma TwoDigitPart(n: nat)
    requires n < 100
    ensures var s := PadStart(ToDecimal(n), 2, '0');
      |s| == 2 && AllDigits(s) && DecimalValue(s) == n
  {
    TwoDigitsAtMost(n);
    PaddedValue(n, 2);
  }

  lemma PrefixDecodes(p: string, y: string, m: string, dd: string, year: nat, month: nat, day: nat)
    requires p == "ORD-" + (y + m + dd) && |m| == 2 && |dd| == 2
    requires AllDigits(y) && AllDigits(m) && AllDigits(dd)
    requires DecimalValue(y) == year && DecimalValue(m) == month && DecimalValue(dd) == day
    ensures |p| == 8 + |y|
    ensures AllDigits(p[4..|p| - 4]) && DecimalValue(p[4..|p| - 4]) == year
    ensures AllDigits(p[|p| - 4..|p| - 2]) && DecimalValue(p[|p| - 4..|p| - 2]) == month
    ensures AllDigits(p[|p| - 2..]) && DecimalValue(p[|p| - 2..]) == day
  {
    PrefixSlices("ORD-", y, m, dd);
  }

  lemma PrefixSlices(head: string, y: string, m: string, dd: string)
    requires |head| == 4 && |m| == 2 && |dd| == 2
    ensures var p := head + (y + m + dd);
      && |p| == 8 + |y|
      && p[4..|p| - 4] == y && p[|p| - 4..|p| - 2] == m && p[|p| - 2..] == dd
  {
  }

  lemma DigitsConcat(a: string, b: string, c: string)
    requires AllDigits(a) && AllDigits(b) && AllDigits(c)
    ensures AllDigits(a + b + c)
  {
    var s := a + b + c;
    forall k | 0 <= k < |s| ensures IsDigit(s[k]) {
      if k < |a| { assert s[k] == a[k]; }
      else if k < |a| + |b| { assert s[k] == b[k - |a|]; }
      else { assert s[k] == c[k - |a| - |b|]; }
    }
  }

  lemma PrefixParts(p: string, rest: string)
    ensures StartsWith(p + rest, p) && (p + rest)[|p|..] == rest
  {
    assert (p + rest)[..|p|] == p;
  }

  lemma PaddedDigits(s: string, width: nat)
    requires AllDigits(s)
    ensures AllDigits(PadStart(s, width, '0'))
  {
    var r := PadStart(s, width, '0');
    forall k | 0 <= k < |r| ensures IsDigit(r[k]) {
      if k >= |r| - |s| { assert r[k] == r[|r| - |s|..][k - (|r| - |s|)]; }
    }
  }

  /** The numbers a `{$regex: ^prefix}` query selects. */
  function SameDay(numbers: seq<string>, prefix: string): (r: seq<string>)
    ensures forall x :: x in r <==> x in numbers && StartsWith(x, prefix)
  {
    if |numbers| == 0 then []
    else (if StartsWith(numbers[0], prefix) then [numbers[0]] else []) + SameDay(numbers[1..], prefix)
  }

  /** A JavaScript number as the generator can produce it. */
  datatype JsNumber = Finite(v: int) | NaN

  /** `parseInt(n.split('-')[2], 10)`; a missing third piece is `undefined`,
      which `parseInt` reads as `NaN`. */
  function SequenceOf(n: string): JsNumber {
    var parts := Split(n, '-');
    if |parts| < 3 then NaN
    else match ParseInt(parts[2])
      case Some(v) => Finite(v)
      case None => NaN
  }

  /** `x.toString()`. */
  function NumberToString(x: JsNumber): string {
    match x
    case Finite(v) => IntToString(v)
    case NaN => "NaN"
  }

  function Increment(x: JsNumber): JsNumber {
    match x
    case Finite(v) => Finite(v + 1)
    case NaN => NaN
  }

  function Render(prefix: string, next: JsNumber): string {
    prefix + "-" + PadStart(NumberToString(next), 4, '0')
  }

  /** The sequence `generateOrderNumber` picks, as written: 1 when no order
      carries the day's prefix, otherwise one more than the sequence of the
      first number in descending string order. */
  function NextSequenceAsWritten(numbers: seq<string>, prefix: string): JsNumber {
    var day := SameDay(numbers, prefix);
    if |day| == 0 then Finite(1) else Increment(SequenceOf(LexMax(day)))
  }

  /** `generateOrderNumber()` as written. */
  function GenerateOrderNumberAsWritten(date: Date, numbers: seq<string>): (r: string)
    ensures StartsWith(r, DatePrefix(date) + "-")
    ensures SameDay(numbers, DatePrefix(date)) == [] ==> r == DatePrefix(date) + "-0001"
    ensures var next := NextSequenceAsWritten(numbers, DatePrefix(date));
      next.Finite? && next.v >= 0 ==> r == DatePrefix(date) + "-" + PadStart(ToDecimal(next.v), 4, '0')
  {
    var prefix := DatePrefix(date);
    RenderStartsWith(prefix, NextSequenceAsWritten(numbers, prefix));
    AsWrittenRenders(prefix, numbers);
    Render(prefix, NextSequenceAsWritten(numbers, prefix))
  }

  lemma AsWrittenRenders(prefix: string, numbers: seq<string>)
    ensures SameDay(numbers, prefix) == [] ==> Render(prefix, NextSequenceAsWritten(numbers, prefix)) == prefix + "-0001"
    ensures var next := NextSequenceAsWritten(numbers, prefix);
      next.Finite? && next.v >= 0 ==> Render(prefix, next) == prefix + "-" + PadStart(ToDecimal(next.v), 4, '0')
  {
    var next := NextSequenceAsWritten(numbers, prefix);
    if SameDay(numbers, prefix) == [] {
      assert next == Finite(1);
      FirstOfDay(prefix);
    }
    if next.Finite? && next.v >= 0 {
      RenderFinite(prefix, next);
    }
  }

  /** What any generated number reads back as: the third '-' piece is the
      padded sequence, and `parseInt` recovers the sequence from it. */
  lemma SequenceOfRendered(date: Date, next: nat)
    ensures SequenceOf(Render(DatePrefix(date), Finite(next))) == Finite(next)
  {
    SequenceAfterPrefix(DatePrefix(date), next);
  }

  lemma SequenceAfterPrefix(prefix: string, next: nat)
    requires StartsWith(prefix, "ORD-") && AllDigits(prefix[4..])
    ensures SequenceOf(Render(prefix, Finite(next))) == Finite(next)
  {
    var digits := prefix[4..];
    var pad := PadStart(ToDecimal(next), 4, '0');
    assert NumberToString(Finite(next)) == ToDecimal(next);
    assert prefix == "ORD-" + digits;
    var r := Render(prefix, Finite(next));
    assert r == "ORD" + ['-'] + (digits + ['-'] + pad);
    NoDashInDigits(digits);
    PaddedDigits(ToDecimal(next), 4);
    NoDashInDigits(pad);
    SplitThree("ORD", digits, pad);
    PadRoundTrip(next, 4);
  }

  lemma NoDashInDigits(s: string)
    requires AllDigits(s)
    ensures '-' !in s
  {
    forall k | 0 <= k < |s| ensures s[k] != '-' { assert IsDigit(s[k]); }
  }

  /** Three dash-free pieces joined by dashes split back into themselves. */
  lemma SplitThree(a: string, b: string, c: string)
    requires '-' !in a && '-' !in b && '-' !in c
    ensures Split(a + ['-'] + (b + ['-'] + c), '-') == [a, b, c]
  {
    SplitAfterPiece(a, '-', b + ['-'] + c);
    SplitAfterPiece(b, '-', c);
    SplitNoSeparator(c, '-');
  }

  /** The largest sequence, as a number, among the given order numbers (0 if
      none has one). */
  function MaxSequence(numbers: seq<string>): nat
    decreases |numbers|
  {
    if |numbers| == 0 then 0
    else
      var rest := MaxSequence(numbers[1..]);
      match SequenceOf(numbers[0])
      case Finite(v) => if v > rest then v else rest
      case NaN => rest
  }

  /** `MaxSequence` bounds every parseable sequence among the numbers. */
  lemma {:induction false} MaxSequenceBounds(numbers: seq<string>)
    ensures forall i :: 0 <= i < |numbers| && SequenceOf(numbers[i]).Finite? ==> SequenceOf(numbers[i]).v <= MaxSequence(numbers)
    decreases |numbers|
  {
    if |numbers| > 0 {
      MaxSequenceBounds(numbers[1..]);
      assert forall i :: 1 <= i < |numbers| ==> numbers[i] == numbers[1..][i - 1];
    }
  }

  /** `generateOrderNumber()` corrected: one more than the numerically largest
      sequence of the day, so the number is new to the collection. */
  function GenerateOrderNumber(date: Date, numbers: seq<string>): (r: string)
    ensures StartsWith(r, DatePrefix(date) + "-")
    ensures r !in numbers
    ensures SequenceOf(r) == Finite(1 + MaxSequence(SameDay(numbers, DatePrefix(date))))
    ensures SameDay(numbers, DatePrefix(date)) == [] ==> r == DatePrefix(date) + "-0001"
  {
    var prefix := DatePrefix(date);
    var next := 1 + MaxSequence(SameDay(numbers, prefix));
    FreshAfter(prefix, numbers, next);
    FirstOfDay(prefix);
    Render(prefix, Finite(next))
  }

  /** For any `ORD-<digits>` day prefix, a rendered number whose sequence
      exceeds every sequence already used that day carries the prefix, reads
      back as that sequence, and is not among the existing numbers. */
  lemma FreshAfter(prefix: string, numbers: seq<string>, next: nat)
    requires StartsWith(prefix, "ORD-") && AllDigits(prefix[4..])
    requires next > MaxSequence(SameDay(numbers, prefix))
    ensures StartsWith(Render(prefix, Finite(next)), prefix + "-")
    ensures SequenceOf(Render(prefix, Finite(next))) == Finite(next)
    ensures Render(prefix, Finite(next)) !in numbers
  {
    RenderStartsWith(prefix, Finite(next));
    SequenceAfterPrefix(prefix, next);
    AboveMaxIsNew(numbers, prefix, Render(prefix, Finite(next)), next);
  }

  lemma RenderFinite(prefix: string, x: JsNumber)
    requires x.Finite? && x.v >= 0
    ensures Render(prefix, x) == prefix + "-" + PadStart(ToDecimal(x.v), 4, '0')
  {
  }

  lemma FirstOfDay(prefix: string)
    ensures Render(prefix, Finite(1)) == prefix + "-0001"
  {
    assert NumberToString(Finite(1)) == "1";
    assert PadStart("1", 4, '0') == "0001";
  }

  lemma RenderStartsWith(prefix: string, next: JsNumber)
    ensures StartsWith(Render(prefix, next), prefix + "-")
    ensures StartsWith(Render(prefix, next), prefix)
  {
    var r := Render(prefix, next);
    assert r[..|prefix + "-"|] == prefix + "-";
    assert r[..|prefix|] == prefix;
  }

  lemma AboveMaxIsNew(numbers: seq<string>, prefix: string, r: string, next: nat)
    requires StartsWith(r, prefix) && SequenceOf(r) == Finite(next)
    requires next > MaxSequence(SameDay(numbers, prefix))
    ensures r !in numbers
  {
    var day := SameDay(numbers, prefix);
    MaxSequenceBounds(day);
    forall i | 0 <= i < |day| ensures day[i] != r {
      if SequenceOf(day[i]).Finite? {
        assert SequenceOf(day[i]).v <= MaxSequence(day) < next;
      }
    }
    assert r !in day;
  }

  /** MongoDB sorts strings character by character, so `ORD-20240615-10000`
      comes before `ORD-20240615-9999` in descending order. */
  lemma {:induction false} LexCommonPrefix(p: string, a: string, b: string)
    ensures LexLess(p + a, p + b) <==> LexLess(a, b)
    decreases |p|
  {
    if |p| == 0 {
      assert p + a == a && p + b == b;
    } else {
      assert (p + a)[0] == p[0] && (p + b)[0] == p[0];
      assert (p + a)[1..] == p[1..] + a;
      assert (p + b)[1..] == p[1..] + b;
      LexCommonPrefix(p[1..], a, b);
    }
  }

  lemma DayOfExample()
    ensures DatePrefix(Date(2024, 6, 15)) == "ORD-20240615"
  {
  }

  lemma Decimal9999()
    ensures ToDecimal(9999) == "9999"
  {
    assert ToDecimal(9) == "9";
    assert ToDecimal(99) == ToDecimal(9) + "9";
    assert ToDecimal(999) == ToDecimal(99) + "9";
  }

  lemma Decimal1000x()
    ensures ToDecimal(10000) == "10000" && ToDecimal(10001) == "10001"
  {
    assert ToDecimal(1) == "1";
    assert ToDecimal(10) == ToDecimal(1) + "0";
    assert ToDecimal(100) == ToDecimal(10) + "0";
    assert ToDecimal(1000) == ToDecimal(100) + "0";
  }

  /** The three numbers of the example, as the generator renders them. */
  lemma ExampleRenderings()
    ensures Render("ORD-20240615", Finite(9999)) == "ORD-20240615-9999"
    ensures Render("ORD-20240615", Finite(10000)) == "ORD-20240615-10000"
    ensures Render("ORD-20240615", Finite(10001)) == "ORD-20240615-10001"
  {
    Decimal9999();
    Decimal1000x();
    assert NumberToString(Finite(9999)) == "9999";
    assert NumberToString(Finite(10000)) == "10000";
    assert NumberToString(Finite(10001)) == "10001";
  }

  lemma ExampleSequences()
    ensures SequenceOf("ORD-20240615-9999") == Finite(9999)
    ensures SequenceOf("ORD-20240615-10000") == Finite(10000)
  {
    DayOfExample();
    ExampleRenderings();
    SequenceOfRendered(Date(2024, 6, 15), 9999);
    SequenceOfRendered(Date(2024, 6, 15), 10000);
  }

  lemma ExampleSameDay()
    ensures SameDay(["ORD-20240615-9999", "ORD-20240615-10000"], "ORD-20240615")
         == ["ORD-20240615-9999", "ORD-20240615-10000"]
  {
    var prefix := "ORD-20240615";
    var a := "ORD-20240615-9999";
    var b := "ORD-20240615-10000";
    assert StartsWith(a, prefix) && StartsWith(b, prefix);
    assert [a, b][1..] == [b] && [b][1..] == [];
    assert SameDay([b], prefix) == [b] + SameDay([], prefix) == [b];
  }

  lemma AsWrittenExample()
    ensures GenerateOrderNumberAsWritten(Date(2024, 6, 15), ["ORD-20240615-9999", "ORD-20240615-10000"])
         == "ORD-20240615-10000"
  {
    var a := "ORD-20240615-9999";
    var b := "ORD-20240615-10000";
    DayOfExample();
    ExampleSameDay();
    ExampleLastOfDay();
    ExampleSequences();
    assert NextSequenceAsWritten([a, b], "ORD-20240615") == Finite(10000);
    ExampleRenderings();
  }

  /** In descending string order `…-9999` comes first. */
  lemma ExampleLastOfDay()
    ensures LexMax(["ORD-20240615-9999", "ORD-20240615-10000"]) == "ORD-20240615-9999"
  {
    var prefix := "ORD-20240615-";
    var a := "ORD-20240615-9999";
    var b := "ORD-20240615-10000";
    assert LexLess(b, a) by {
      assert b == prefix + "10000" && a == prefix + "9999";
      LexCommonPrefix(prefix, "10000", "9999");
    }
    LexMaxOfPair(a, b);
  }

  lemma LexMaxOfPair(a: string, b: string)
    requires LexLess(b, a)
    ensures LexMax([a, b]) == a
  {
    assert [a, b][1..] == [b];
  }

  lemma CorrectedExample()
    ensures GenerateOrderNumber(Date(2024, 6, 15), ["ORD-20240615-9999", "ORD-20240615-10000"])
         == "ORD-20240615-10001"
  {
    var a := "ORD-20240615-9999";
    var b := "ORD-20240615-10000";
    DayOfExample();
    ExampleSameDay();
    ExampleSequences();
    assert [a, b][1..] == [b] && [b][1..] == [];
    assert MaxSequence([b]) == 10000;
    assert MaxSequence([a, b]) == 10000;
    ExampleRenderings();
  }

  /** The discrepancy: with sequences 9999 and 10000 already used on a day,
      the generator as written picks `9999` as the last one and produces the
      existing number `…-10000` again; the corrected one produces `…-10001`. */
  lemma AsWrittenRepeatsAfter9999()
    ensures var numbers := ["ORD-20240615-9999", "ORD-20240615-10000"];
      && GenerateOrderNumberAsWritten(Date(2024, 6, 15), numbers) == "ORD-20240615-10000"
      && GenerateOrderNumberAsWritten(Date(2024, 6, 15), numbers) in numbers
      && GenerateOrderNumber(Date(2024, 6, 15), numbers) == "ORD-20240615-10001"
  {
    AsWrittenExample();
    CorrectedExample();
  }

  // ---------------------------------------------------------------------
  // the collection
  // ---------------------------------------------------------------------

  function Numbers(orders: seq<Order>): (r: seq<string>)
    ensures |r| == |orders| && forall i :: 0 <= i < |orders| ==> r[i] == orders[i].orderNumber
  {
    seq(|orders|, i requires 0 <= i < |orders| => orders[i].orderNumber)
  }

  /** The unique index on `orderNumber`. */
  predicate NumbersUnique(orders: seq<Order>) {
    forall i, j :: 0 <= i < |orders| && 0 <= j < |orders| && orders[i].orderNumber == orders[j].orderNumber ==> i == j
  }

  /** `data.customerId || 'system'`: an absent or empty customer id is
      recorded as `system`. */
  function CreatedBy(customerId: Option<string>): string {
    if customerId.None? || customerId.value == "" then "system" else customerId.value
  }

  /** `createOrder(data)` with the number already chosen: the supplied fields
      are spread, then `orderNumber`, `status` and `statusHistory` are
      overridden; `save()` is refused by the unique index if the number exists. */
  function CreateOrderWith(orders: seq<Order>, data: OrderDraft, number: string)
    : (r: Result<(seq<Order>, Order), OrderError>)
    ensures r.Err? <==> number in Numbers(orders)
    ensures r.Ok? ==> var (orders', o) := r.value;
      && orders' == orders + [o]
      && o.orderNumber == number
      && o.status == StatusName(Pending)
      && o.statusHistory == [HistoryEntry(StatusName(Pending), CreatedBy(data.customerId))]
      && o.customerId == data.customerId && o.ressourceid == data.ressourceid
      && o.notes == data.notes && o.pricing == data.pricing
      && o.items == data.items.GetOr([])
  {
    var o := Order(number, data.customerId, data.ressourceid, data.items.GetOr([]), data.pricing,
                   StatusName(Pending), data.notes, [HistoryEntry(StatusName(Pending), CreatedBy(data.customerId))]);
    if number in Numbers(orders) then Err(DuplicateOrderNumber(number)) else Ok((orders + [o], o))
  }

  /** `createOrder` as written, with its order-number generator. */
  function CreateOrderAsWritten(orders: seq<Order>, data: OrderDraft, date: Date)
    : (r: Result<(seq<Order>, Order), OrderError>)
    ensures r.Err? <==> GenerateOrderNumberAsWritten(date, Numbers(orders)) in Numbers(orders)
    ensures r.Ok? ==> && r.value.0 == orders + [r.value.1]
                      && r.value.1.orderNumber == GenerateOrderNumberAsWritten(date, Numbers(orders))
                      && StartsWith(r.value.1.orderNumber, DatePrefix(date) + "-")
  {
    CreateOrderWith(orders, data, GenerateOrderNumberAsWritten(date, Numbers(orders)))
  }

  /** The consequence for `createOrder` as written: the ten-thousand-and-first
      order of a day is refused by the unique index. */
  lemma CreateOrderAsWrittenFailsAfter9999(orders: seq<Order>, data: OrderDraft)
    requires Numbers(orders) == ["ORD-20240615-9999", "ORD-20240615-10000"]
    ensures CreateOrderAsWritten(orders, data, Date(2024, 6, 15)).Err?
  {
    AsWrittenRepeatsAfter9999();
  }

  /** `createOrder(data)` with the corrected generator: it always succeeds,
      keeps the numbers unique, ignores any supplied number, status or
      history, and starts the order `PENDING` with one history entry. */
  function CreateOrder(orders: seq<Order>, data: OrderDraft, date: Date)
    : (r: Result<(seq<Order>, Order), OrderError>)
    requires NumbersUnique(orders)
    ensures r.Ok?
    ensures var (orders', o) := r.value;
      && NumbersUnique(orders')
      && orders' == orders + [o]
      && StartsWith(o.orderNumber, DatePrefix(date) + "-")
      && o.orderNumber !in Numbers(orders)
      && o.status == "PENDING"
      && o.statusHistory == [HistoryEntry("PENDING", CreatedBy(data.customerId))]
  {
    var r := CreateOrderWith(orders, data, GenerateOrderNumber(date, Numbers(orders)));
    AppendFreshKeepsUnique(orders, r.value.1);
    r
  }

  lemma AppendFreshKeepsUnique(orders: seq<Order>, o: Order)
    requires NumbersUnique(orders) && o.orderNumber !in Numbers(orders)
    ensures NumbersUnique(orders + [o])
  {
    var all := orders + [o];
    forall i, j | 0 <= i < |all| && 0 <= j < |all| && all[i].orderNumber == all[j].orderNumber
      ensures i == j
    {
      if i < |orders| { assert Numbers(orders)[i] == all[i].orderNumber; }
      if j < |orders| { assert Numbers(orders)[j] == all[j].orderNumber; }
    }
  }

  // ---------------------------------------------------------------------
  // listing and lookup
  // ---------------------------------------------------------------------

  /** The orders that satisfy `keep`, newest first (`sort({createdAt: -1})`
      on a collection kept in creation order). */
  function NewestFirst(orders: seq<Order>, keep: Order -> bool): (r: seq<Order>)
    ensures forall o :: o in r <==> o in orders && keep(o)
    ensures |r| <= |orders|
    decreases |orders|
  {
    if |orders| == 0 then []
    else NewestFirst(orders[1..], keep) + (if keep(orders[0]) then [orders[0]] else [])
  }

  /** Newest first: an order created after the others heads the listing
      when it is kept. */
  lemma {:induction false} NewestFirstAppend(orders: seq<Order>, o: Order, keep: Order -> bool)
    ensures NewestFirst(orders + [o], keep) == (if keep(o) then [o] else []) + NewestFirst(orders, keep)
    decreases |orders|
  {
    if |orders| == 0 {
      assert orders + [o] == [o];
      assert [o][1..] == [];
    } else {
      assert (orders + [o])[0] == orders[0];
      assert (orders + [o])[1..] == orders[1..] + [o];
      NewestFirstAppend(orders[1..], o, keep);
    }
  }

  predicate NotDeleted(o: Order) {
    o.status != StatusName(Deleted)
  }

  /** `findAll(limit, skip)`: the orders not marked `DELETED`, newest first,
      `skip` of them skipped and at most `|limit|` kept (a limit of 0 means no
      limit; MongoDB refuses a negative skip). */
  function FindAll(orders: seq<Order>, limit: int := 20, skip: int := 0): (r: Result<seq<Order>, OrderError>)
    ensures r.Err? <==> skip < 0
    ensures r.Ok? ==> forall o :: o in r.value ==> o in orders && o.status != "DELETED"
    ensures r.Ok? && limit != 0 ==> |r.value| <= if limit < 0 then -limit else limit
    ensures limit == 0 && skip == 0 ==> r.Ok? && forall o :: o in r.value <==> o in orders && o.status != "DELETED"
  {
    if skip < 0 then Err(NegativeSkip)
    else
      var visible := NewestFirst(orders, NotDeleted);
      var window := if skip <= |visible| then visible[skip..] else [];
      var n := if limit < 0 then -limit else limit;
      assert StatusName(Deleted) == "DELETED";
      assert forall o :: o in window ==> o in visible;
      if limit == 0 || n >= |window| then Ok(window)
      else
        assert forall o :: o in window[..n] ==> o in window;
        Ok(window[..n])
  }

  /** `findByCustomer(customerId)`: exactly that customer's orders not marked
      `DELETED`, newest first. */
  function FindByCustomer(orders: seq<Order>, customerId: string): (r: seq<Order>)
    ensures forall o :: o in r <==> o in orders && o.customerId == Some(customerId) && o.status != "DELETED"
  {
    NewestFirst(orders, (o: Order) => o.customerId == Some(customerId) && NotDeleted(o))
  }

  /** The position of the first order numbered `full`. */
  function IndexOf(orders: seq<Order>, full: string): (r: Option<nat>)
    ensures r.None? <==> forall i :: 0 <= i < |orders| ==> orders[i].orderNumber != full
    ensures r.Some? ==> r.value < |orders| && orders[r.value].orderNumber == full
    decreases |orders|
  {
    if |orders| == 0 then None
    else if orders[0].orderNumber == full then Some(0)
    else match IndexOf(orders[1..], full)
      case None => None
      case Some(k) => Some(k + 1)
  }

  function NotFoundMessage(full: string): string {
    "Commande #" + full + " introuvable"
  }

  /** `findByOrderNumber(orderNumber)`: the argument lacks the `ORD-` prefix,
      which is put back before the lookup; an unknown number is NotFound. */
  function FindByOrderNumber(orders: seq<Order>, orderNumber: string): (r: Result<Order, OrderError>)
    ensures r.Ok? ==> r.value in orders && r.value.orderNumber == "ORD-" + orderNumber
    ensures r.Err? <==> "ORD-" + orderNumber !in Numbers(orders)
    ensures r.Err? ==> r.error == NotFound(NotFoundMessage("ORD-" + orderNumber))
  {
    var full := "ORD-" + orderNumber;
    match IndexOf(orders, full)
    case None => Err(NotFound(NotFoundMessage(full)))
    case Some(i) => Ok(orders[i])
  }

  /** A created order can be looked up by its number without the `ORD-`
      prefix. */
  lemma CreatedOrderFound(orders: seq<Order>, data: OrderDraft, date: Date)
    requires NumbersUnique(orders)
    ensures var (orders', o) := CreateOrder(orders, data, date).value;
      FindByOrderNumber(orders', o.orderNumber[4..]) == Ok(o)
  {
    var (orders', o) := CreateOrder(orders, data, date).value;
    var p := DatePrefix(date);
    PrefixParts(p, "-");
    StartsWithLonger(o.orderNumber, p + "-", p);
    StartsWithLonger(o.orderNumber, p, "ORD-");
    assert orders'[|orders|] == o;
    FindUniqueNumber(orders', |orders|);
  }

  lemma StartsWithLonger(s: string, p: string, q: string)
    requires StartsWith(s, p) && StartsWith(p, q)
    ensures StartsWith(s, q)
  {
    assert s[..|q|] == s[..|p|][..|q|];
  }

  /** Looking up the number of a stored order finds that order when numbers
      are unique. */
  lemma FindUniqueNumber(orders: seq<Order>, i: nat)
    requires NumbersUnique(orders) && i < |orders|
    requires StartsWith(orders[i].orderNumber, "ORD-")
    ensures FindByOrderNumber(orders, orders[i].orderNumber[4..]) == Ok(orders[i])
  {
    assert "ORD-" + orders[i].orderNumber[4..] == orders[i].orderNumber;
  }

  /** A created order heads the unpaginated listing. */
  lemma CreatedOrderListedFirst(orders: seq<Order>, data: OrderDraft, date: Date)
    requires NumbersUnique(orders)
    ensures var (orders', o) := CreateOrder(orders, data, date).value;
      FindAll(orders', 0, 0) == Ok([o] + NewestFirst(orders, NotDeleted))
  {
    var (orders', o) := CreateOrder(orders, data, date).value;
    NewestFirstAppend(orders, o, NotDeleted);
  }

  // ---------------------------------------------------------------------
  // update
  // ---------------------------------------------------------------------

  datatype UpdateData = UpdateData(items: Option<seq<Item>>, addItems: Option<seq<Item>>, pricing: Option<Pricing>, notes: Option<string>)

  datatype SetValue = SetItems(items: seq<Item>) | SetAmount(amount: real) | SetText(text: string)

  /** A MongoDB update document: `$set` and `$push` (with `$each`), each
      present only when it is not empty. */
  datatype UpdateQuery = UpdateQuery(sets: Option<map<string, SetValue>>, pushes: Option<map<string, seq<Item>>>)

  /** The keys `update` may put under `$set`. */
  const SetKeys: set<string> := {"items", "pricing.subtotal", "pricing.discount", "pricing.total", "notes", "updatedBy"}

  function PricingSets(p: Option<Pricing>): (m: map<string, SetValue>)
    ensures m.Keys <= {"pricing.subtotal", "pricing.discount", "pricing.total"}
    ensures "pricing.subtotal" in m <==> p.Some? && p.value.subtotal.Some?
    ensures "pricing.discount" in m <==> p.Some? && p.value.discount.Some?
    ensures "pricing.total" in m <==> p.Some? && p.value.total.Some?
    ensures "pricing.subtotal" in m ==> m["pricing.subtotal"] == SetAmount(p.value.subtotal.value)
    ensures "pricing.discount" in m ==> m["pricing.discount"] == SetAmount(p.value.discount.value)
    ensures "pricing.total" in m ==> m["pricing.total"] == SetAmount(p.value.total.value)
  {
    if p.None? then map[]
    else
      var m0: map<string, SetValue> := map[];
      var m1 := if p.value.subtotal.Some? then m0["pricing.subtotal" := SetAmount(p.value.subtotal.value)] else m0;
      var m2 := if p.value.discount.Some? then m1["pricing.discount" := SetAmount(p.value.discount.value)] else m1;
      if p.value.total.Some? then m2["pricing.total" := SetAmount(p.value.total.value)] else m2
  }

  /** The update query `update` builds from its input. */
  function BuildUpdate(data: UpdateData, updatedBy: string): (q: UpdateQuery)
    ensures q.sets.Some? && q.sets.value.Keys <= SetKeys
    ensures "updatedBy" in q.sets.value && q.sets.value["updatedBy"] == SetText(updatedBy)
    ensures "items" in q.sets.value <==> data.items.Some?
    ensures data.items.Some? ==> q.sets.value["items"] == SetItems(data.items.value)
    ensures "notes" in q.sets.value <==> data.notes.Some?
    ensures data.notes.Some? ==> q.sets.value["notes"] == SetText(data.notes.value)
    ensures "pricing.subtotal" in q.sets.value <==> data.pricing.Some? && data.pricing.value.subtotal.Some?
    ensures "pricing.discount" in q.sets.value <==> data.pricing.Some? && data.pricing.value.discount.Some?
    ensures "pricing.total" in q.sets.value <==> data.pricing.Some? && data.pricing.value.total.Some?
    ensures "pricing.subtotal" in q.sets.value ==> q.sets.value["pricing.subtotal"] == SetAmount(data.pricing.value.subtotal.value)
    ensures "pricing.discount" in q.sets.value ==> q.sets.value["pricing.discount"] == SetAmount(data.pricing.value.discount.value)
    ensures "pricing.total" in q.sets.value ==> q.sets.value["pricing.total"] == SetAmount(data.pricing.value.total.value)
    ensures q.pushes.Some? <==> data.addItems.Some? && |data.addItems.value| > 0
    ensures q.pushes.Some? ==> q.pushes.value == map["items" := data.addItems.value]
  {
    var withItems: map<string, SetValue> := if data.items.Some? then map["items" := SetItems(data.items.value)] else map[];
    var withPricing := withItems + PricingSets(data.pricing);
    var withNotes := if data.notes.Some? then withPricing["notes" := SetText(data.notes.value)] else withPricing;
    var set' := withNotes["updatedBy" := SetText(updatedBy)];
    var push := if data.addItems.Some? && |data.addItems.value| > 0 then Some(map["items" := data.addItems.value]) else None;
    UpdateQuery(Some(set'), push)
  }

  function AmountOr(m: map<string, SetValue>, key: string, current: Option<real>): Option<real> {
    if key in m && m[key].SetAmount? then Some(m[key].amount) else current
  }

  /** The pricing an update leaves behind, field by field: an amount given
      replaces the stored one, an amount not given keeps it, and when no
      amount is given at all the pricing is left as it was, absent or not. */
  function MergePricing(current: Option<Pricing>, given: Option<Pricing>): Option<Pricing> {
    if given.None? || (given.value.subtotal.None? && given.value.discount.None? && given.value.total.None?) then current
    else
      var c := current.GetOr(Pricing(None, None, None));
      Some(Pricing(
        if given.value.subtotal.Some? then given.value.subtotal else c.subtotal,
        if given.value.discount.Some? then given.value.discount else c.discount,
        if given.value.total.Some? then given.value.total else c.total))
  }

  /** The pricing after the `pricing.*` paths of a `$set`: with none of them
      the pricing is untouched; otherwise the sub-document is created if
      absent and each path set overwrites its field. */
  function PricingAfter(pricing: Option<Pricing>, sets: map<string, SetValue>): Option<Pricing> {
    if "pricing.subtotal" in sets || "pricing.discount" in sets || "pricing.total" in sets then
      var current := pricing.GetOr(Pricing(None, None, None));
      Some(Pricing(AmountOr(sets, "pricing.subtotal", current.subtotal),
                   AmountOr(sets, "pricing.discount", current.discount),
                   AmountOr(sets, "pricing.total", current.total)))
    else pricing
  }

  /** The query `update` builds merges pricing field by field. */
  lemma BuiltPricingMerges(pricing: Option<Pricing>, data: UpdateData, updatedBy: string)
    ensures PricingAfter(pricing, BuildUpdate(data, updatedBy).sets.value) == MergePricing(pricing, data.pricing)
  {
  }

  /** `findOneAndUpdate` applying a query to an order. A `$set` and a `$push`
      on the same path are refused by MongoDB. `updatedBy` is not a path of
      the order schema, so Mongoose's strict mode leaves it out of the write. */
  function ApplyUpdate(o: Order, q: UpdateQuery): (r: Result<Order, OrderError>)
  {
    var sets := q.sets.GetOr(map[]);
    var pushes := q.pushes.GetOr(map[]);
    if "items" in sets && "items" in pushes then Err(PathConflict("items"))
    else
      var base := if "items" in sets && sets["items"].SetItems? then sets["items"].items else o.items;
      var items := if "items" in pushes then base + pushes["items"] else base;
      var pricing := PricingAfter(o.pricing, sets);
      var notes := if "notes" in sets && sets["notes"].SetText? then Some(sets["notes"].text) else o.notes;
      Ok(o.(items := items, pricing := pricing, notes := notes))
  }

  /** `update(orderNumber, data, updatedBy)`. */
  function Update(orders: seq<Order>, orderNumber: string, data: UpdateData, updatedBy: string)
    : (r: Result<(seq<Order>, Order), OrderError>)
    ensures "ORD-" + orderNumber !in Numbers(orders) ==> r == Err(NotFound(NotFoundMessage("ORD-" + orderNumber)))
    ensures r.Ok? ==> |r.value.0| == |orders|
  {
    var full := "ORD-" + orderNumber;
    match IndexOf(orders, full)
    case None => Err(NotFound(NotFoundMessage(full)))
    case Some(i) =>
      match ApplyUpdate(orders[i], BuildUpdate(data, updatedBy))
      case Err(e) => Err(e)
      case Ok(o') => Ok((orders[i := o'], o'))
  }

  /** What an update does to the order: items replaced and/or extended as
      asked, pricing fields and notes overwritten only when given, and
      nothing else touched; both a replacement and a non-empty addition is a
      conflict. */
  lemma UpdateEffect(orders: seq<Order>, orderNumber: string, data: UpdateData, updatedBy: string)
    requires "ORD-" + orderNumber in Numbers(orders)
    ensures var r := Update(orders, orderNumber, data, updatedBy);
      r.Err? <==> data.items.Some? && data.addItems.Some? && |data.addItems.value| > 0
    ensures var r := Update(orders, orderNumber, data, updatedBy);
      r.Ok? ==>
        var i := IndexOf(orders, "ORD-" + orderNumber).value;
        var (orders', o') := r.value;
        var o := orders[i];
        && orders' == orders[i := o']
        && o'.orderNumber == o.orderNumber && o'.customerId == o.customerId
        && o'.status == o.status && o'.statusHistory == o.statusHistory
        && o'.items == data.items.GetOr(o.items) + data.addItems.GetOr([])
        && o'.notes == (if data.notes.Some? then data.notes else o.notes)
        && (data.pricing.None? ==> o'.pricing == o.pricing)
        && (data.pricing.Some? && data.pricing.value.total.Some? ==> o'.pricing.Some? && o'.pricing.value.total == data.pricing.value.total)
        && o' == o.(items := data.items.GetOr(o.items) + data.addItems.GetOr([]),
                    pricing := MergePricing(o.pricing, data.pricing),
                    notes := if data.notes.Some? then data.notes else o.notes)
  {
    var i := IndexOf(orders, "ORD-" + orderNumber).value;
    BuiltUpdateEffect(orders[i], data, updatedBy);
  }

  /** The effect of the built query on one order. */
  lemma BuiltUpdateEffect(o: Order, data: UpdateData, updatedBy: string)
    ensures var r := ApplyUpdate(o, BuildUpdate(data, updatedBy));
      && (r.Err? <==> data.items.Some? && data.addItems.Some? && |data.addItems.value| > 0)
      && (r.Ok? ==> r.value == o.(items := data.items.GetOr(o.items) + data.addItems.GetOr([]),
                                  pricing := MergePricing(o.pricing, data.pricing),
                                  notes := if data.notes.Some? then data.notes else o.notes))
  {
    BuiltPricingMerges(o.pricing, data, updatedBy);
    if data.addItems.Some? && |data.addItems.value| == 0 {
      assert data.items.GetOr(o.items) + data.addItems.GetOr([]) == data.items.GetOr(o.items);
    }
  }

  // ---------------------------------------------------------------------
  // updateStatus
  // ---------------------------------------------------------------------

  /** `updateStatus(orderNumber, status, updatedBy)`: set the status and push
      one history entry; the earlier entries stay as they were. */
  function UpdateStatus(orders: seq<Order>, orderNumber: string, status: string, updatedBy: string)
    : (r: Result<(seq<Order>, Order), OrderError>)
    ensures r.Err? <==> "ORD-" + orderNumber !in Numbers(orders)
    ensures r.Err? ==> r.error == NotFound(NotFoundMessage("ORD-" + orderNumber))
    ensures r.Ok? ==>
      var (orders', o') := r.value;
      exists i :: 0 <= i < |orders| && orders[i].orderNumber == "ORD-" + orderNumber
        && orders' == orders[i := o']
        && o' == orders[i].(status := status, statusHistory := o'.statusHistory)
        && |o'.statusHistory| == |orders[i].statusHistory| + 1
        && o'.statusHistory[..|orders[i].statusHistory|] == orders[i].statusHistory
        && o'.statusHistory[|orders[i].statusHistory|] == HistoryEntry(status, updatedBy)
  {
    var full := "ORD-" + orderNumber;
    match IndexOf(orders, full)
    case None => Err(NotFound(NotFoundMessage(full)))
    case Some(i) =>
      var o := orders[i];
      var o' := o.(status := status, statusHistory := o.statusHistory + [HistoryEntry(status, updatedBy)]);
      assert o'.statusHistory[..|o.statusHistory|] == o.statusHistory;
      Ok((orders[i := o'], o'))
  }
}

=== FILE: pipeline.dfy ===
/** The gateway and the identity authority together: the gateway's
    authentication guard hands the bearer token to the authority's `verify`
    (the `auth-verify` message) and puts the payload it answers with on the
    request, where the roles guard reads the role.

    How the authority reads the token text into a token is a parameter
    (`decode`); the transport in between is not modelled. */
module Pipeline {
  import opened Wrappers
  import opened Roles
  import opened Crypto
  import opened UserSchema
  import opened AuthService
  import opened Guards

  /** The payload the gateway receives for verified claims: the access
      payload's `sub`, `email` and `role`; a refresh payload has only `sub`.
      The decoded payload also carries the `iat` and `exp` that signing
      added; the guards never read them, so this view leaves them out. */
  function ToPayload(c: Claims): (p: Payload)
    ensures p.sub == c.sub
    ensures c.AccessClaims? <==> p.role.Some?
    ensures c.AccessClaims? ==> p.email == Some(c.email) && p.role == Some(Name(c.role))
  {
    match c
    case AccessClaims(sub, email, role) => Payload(sub, Some(email), Some(Name(role)))
    case RefreshClaims(sub) => Payload(sub, None, None)
  }

  /** The verifier the gateway's guard consults: the authority's `verify`,
      an exception becoming no payload. */
  function AuthorityVerifier(cfg: JwtConfig, now: int, decode: string -> Token): string -> Option<Payload> {
    (text: string) =>
      match Verify(cfg, decode(text), now)
      case Ok(c) => Some(ToPayload(c))
      case Err(_) => None
  }

  function BearerRequest(text: string): Request {
    Request(Some("Bearer " + text), None)
  }

  lemma BearerHeaderReadsBack(text: string)
    requires text != "" && ' ' !in text
    ensures ExtractToken(BearerRequest(text).authorization) == Some(text)
  {
    var h := "Bearer " + text;
    assert h[..|"Bearer "| + |text|] == "Bearer " + text;
    ExtractTokenIffBearerForm(h, text);
  }

  /** An access token the authority issued, presented on a protected route:
      within its lifetime the request passes exactly when the route requires
      no role or lists the user's role, and is otherwise forbidden; once it
      has expired it is refused as invalid whatever the route requires. */
  lemma IssuedAccessTokenAtGateway(cfg: JwtConfig, u: User, issued: int, now: int,
                                   text: string, decode: string -> Token, meta: RouteMeta)
    requires decode(text) == GenerateTokens(cfg, u, issued).accessToken
    requires text != "" && ' ' !in text
    requires !IsPublic(meta)
    ensures var r := Gate(meta, BearerRequest(text), AuthorityVerifier(cfg, now, decode));
      var required := GetAllAndOverride(meta.handlerRoles, meta.classRoles);
      && (issued <= now < issued + cfg.accessTtl ==>
            && (r.Ok? <==> required.None? || |required.value| == 0 || Name(u.role) in required.value)
            && (r.Ok? ==> r.value.user == Some(Payload(u.id, Some(u.email), Some(Name(u.role)))))
            && (r.Err? ==> r.error == Forbidden))
      && (now >= issued + cfg.accessTtl ==> r == Err(Unauthorized(BadToken)))
  {
    BearerHeaderReadsBack(text);
    var verify := AuthorityVerifier(cfg, now, decode);
    if issued <= now < issued + cfg.accessTtl {
      assert VerifyToken(decode(text), cfg.accessSecret, now) == Some(AccessClaims(u.id, u.email, u.role));
      assert verify(text) == Some(Payload(u.id, Some(u.email), Some(Name(u.role))));
    }
    if now >= issued + cfg.accessTtl {
      assert VerifyToken(decode(text), cfg.accessSecret, now).None?;
      VerifyFailureDenies(meta, BearerRequest(text), verify);
    }
  }

  /** A client's own access token does not open a route reserved to the
      staff roles `Manager`, `Owner` and `Admin`. */
  lemma ClientTokenForbiddenOnStaffRoute(cfg: JwtConfig, u: User, issued: int, now: int,
                                         text: string, decode: string -> Token, meta: RouteMeta)
    requires u.role == Client
    requires decode(text) == GenerateTokens(cfg, u, issued).accessToken
    requires text != "" && ' ' !in text
    requires meta.handlerRoles == Some(["Manager", "Owner", "Admin"]) && !IsPublic(meta)
    requires issued <= now < issued + cfg.accessTtl
    ensures Gate(meta, BearerRequest(text), AuthorityVerifier(cfg, now, decode)) == Err(Forbidden)
  {
    IssuedAccessTokenAtGateway(cfg, u, issued, now, text, decode, meta);
  }

  /** No role hierarchy, for any roles: on a route requiring a non-empty list
      of roles, an issued access token passes exactly when its own role is in
      the list; no role stands in for another. */
  lemma NoRoleHierarchy(cfg: JwtConfig, u: User, issued: int, now: int,
                        text: string, decode: string -> Token, meta: RouteMeta, required: seq<Role>)
    requires decode(text) == GenerateTokens(cfg, u, issued).accessToken
    requires text != "" && ' ' !in text
    requires meta.handlerRoles == Some(Names(required)) && |required| > 0 && !IsPublic(meta)
    requires issued <= now < issued + cfg.accessTtl
    ensures Gate(meta, BearerRequest(text), AuthorityVerifier(cfg, now, decode)).Ok? <==> u.role in required
  {
    IssuedAccessTokenAtGateway(cfg, u, issued, now, text, decode, meta);
    assert GetAllAndOverride(meta.handlerRoles, meta.classRoles) == Some(Names(required));
    NameListed(u.role, required);
  }

  /** With distinct secrets, a refresh token is no bearer credential: the
      authority's `verify` refuses it, so the gateway answers 401. */
  lemma RefreshTokenRefusedAtGateway(cfg: JwtConfig, u: User, issued: int, now: int,
                                     text: string, decode: string -> Token, meta: RouteMeta)
    requires cfg.accessSecret != cfg.refreshSecret
    requires decode(text) == GenerateTokens(cfg, u, issued).refreshToken
    requires text != "" && ' ' !in text
    requires !IsPublic(meta)
    ensures Gate(meta, BearerRequest(text), AuthorityVerifier(cfg, now, decode)) == Err(Unauthorized(BadToken))
  {
    BearerHeaderReadsBack(text);
    assert VerifyToken(decode(text), cfg.accessSecret, now).None?;
    VerifyFailureDenies(meta, BearerRequest(text), AuthorityVerifier(cfg, now, decode));
  }
}

=== FILE: register_dto.dfy ===
/** Registration input rules, as the two `RegisterDto` classes declare them
    (auth-service/src/auth/dto/register.dto.ts and
    gateway/src/auth/dto/register.dto.ts). The regular expressions are
    written out as character predicates; the phone pattern is given both as
    the pattern itself, under backtracking regular-expression semantics, and
    as a left-to-right recogniser proved to accept the same strings. The
    `IsEmail` check is not part of this model. */
module RegisterDto {
  import opened Wrappers
  import opened Strings
  import opened Roles

  // ---------------------------------------------------------------------
  // password
  // ---------------------------------------------------------------------

  predicate IsLower(c: char) { 'a' <= c <= 'z' }
  predicate IsUpper(c: char) { 'A' <= c <= 'Z' }

  /** `[@$!%*?&]`: the characters that count as special. */
  predicate IsSpecial(c: char) {
    c == '@' || c == '$' || c == '!' || c == '%' || c == '*' || c == '?' || c == '&'
  }

  /** `[A-Za-z\d@$!%*?&.]`: every character a password may contain. The dot
      is allowed but is not special. */
  predicate IsPasswordChar(c: char) {
    IsLower(c) || IsUpper(c) || IsDigit(c) || IsSpecial(c) || c == '.'
  }

  /** `MinLength(8)`, `MaxLength(64)` and the pattern
      `^(?=.*[a-z])(?=.*[A-Z])(?=.*\d)(?=.*[@$!%*?&])[A-Za-z\d@$!%*?&.]{8,}$`:
      one lower-case letter, one upper-case letter, one digit and one special
      character somewhere, and nothing outside the allowed set. */
  predicate PasswordAccepted(p: string) {
    && 8 <= |p| <= 64
    && (exists i :: 0 <= i < |p| && IsLower(p[i]))
    && (exists i :: 0 <= i < |p| && IsUpper(p[i]))
    && (exists i :: 0 <= i < |p| && IsDigit(p[i]))
    && (exists i :: 0 <= i < |p| && IsSpecial(p[i]))
    && (forall i :: 0 <= i < |p| ==> IsPasswordChar(p[i]))
  }

  /** The password rule as one pass over the characters. */
  method CheckPassword(p: string) returns (ok: bool)
    ensures ok <==> PasswordAccepted(p)
  {
    if |p| < 8 || |p| > 64 {
      return false;
    }
    var lower, upper, digit, special := false, false, false, false;
    var i := 0;
    while i < |p|
      invariant 0 <= i <= |p|
      invariant lower <==> exists j :: 0 <= j < i && IsLower(p[j])
      invariant upper <==> exists j :: 0 <= j < i && IsUpper(p[j])
      invariant digit <==> exists j :: 0 <= j < i && IsDigit(p[j])
      invariant special <==> exists j :: 0 <= j < i && IsSpecial(p[j])
      invariant forall j :: 0 <= j < i ==> IsPasswordChar(p[j])
    {
      var c := p[i];
      if !IsPasswordChar(c) {
        return false;
      }
      lower := lower || IsLower(c);
      upper := upper || IsUpper(c);
      digit := digit || IsDigit(c);
      special := special || IsSpecial(c);
      i := i + 1;
    }
    ok := lower && upper && digit && special;
  }

  /** The documented example is accepted; with a dot as its only
      non-alphanumeric character the same password is refused. */
  lemma PasswordExamples()
    ensures PasswordAccepted("Abcdef1!")
    ensures !PasswordAccepted("Abcdef1.")
    ensures PasswordAccepted("Abcdef1!.")
  {
    var good := "Abcdef1!";
    assert IsLower(good[1]) && IsUpper(good[0]) && IsDigit(good[6]) && IsSpecial(good[7]);
    var bad := "Abcdef1.";
    assert forall i :: 0 <= i < |bad| ==> !IsSpecial(bad[i]);
    var dotted := "Abcdef1!.";
    assert IsLower(dotted[1]) && IsUpper(dotted[0]) && IsDigit(dotted[6]) && IsSpecial(dotted[7]);
  }

  // ---------------------------------------------------------------------
  // names and role
  // ---------------------------------------------------------------------

  /** `IsNotEmpty`, `MinLength(2)`, `MaxLength(50)`. */
  predicate NameAccepted(s: string) {
    s != "" && 2 <= |s| <= 50
  }

  /** `IsOptional` + `IsEnum(UserRole)`: absent, or one of the seven values. */
  predicate RoleAccepted(role: Option<string>) {
    role.None? || FromName(role.value).Some?
  }

  // ---------------------------------------------------------------------
  // phone: the pattern and a recogniser
  // ---------------------------------------------------------------------

  /** A character class of the phone pattern. */
  datatype CharClass = Exactly(c: char) | Digits | Separators

  /** `[0-9]` is `Digits`; `[-\s.]` is `Separators`. */
  predicate InClass(cc: CharClass, c: char) {
    match cc
    case Exactly(x) => c == x
    case Digits => IsDigit(c)
    case Separators => c == '-' || c == '.' || IsJsSpace(c)
  }

  predicate AllIn(cc: CharClass, s: string) {
    forall i :: 0 <= i < |s| ==> InClass(cc, s[i])
  }

  /** One element of an anchored pattern: `x?`, or `x{min,max}`. */
  datatype Atom = Optional(cc: CharClass) | Between(cc: CharClass, min: nat, max: nat)

  /** The whole of `s` matches the anchored pattern `p`, trying every way
      of splitting `s` among the atoms, as a backtracking matcher does. */
  predicate Matches(p: seq<Atom>, s: string)
    decreases |p|
  {
    if |p| == 0 then |s| == 0
    else match p[0]
      case Optional(cc) =>
        (|s| > 0 && InClass(cc, s[0]) && Matches(p[1..], s[1..])) || Matches(p[1..], s)
      case Between(cc, lo, hi) =>
        exists k :: lo <= k <= hi && k <= |s| && AllIn(cc, s[..k]) && Matches(p[1..], s[k..])
  }

  /** `^[+]?[(]?[0-9]{3}[)]?[-\s.]?[0-9]{3}[-\s.]?[0-9]{4,6}$`. */
  const PhonePattern: seq<Atom> := [
    Optional(Exactly('+')), Optional(Exactly('(')), Between(Digits, 3, 3),
    Optional(Exactly(')')), Optional(Separators), Between(Digits, 3, 3),
    Optional(Separators), Between(Digits, 4, 6)]

  /** Drop a leading character of class `cc`, if there is one. */
  function SkipOne(cc: CharClass, s: string): (r: string)
    ensures |r| <= |s|
  {
    if |s| > 0 && InClass(cc, s[0]) then s[1..] else s
  }

  /** The phone rule read left to right: optional '+', optional '(', three
      digits, optional ')', optional separator, three digits, optional
      separator, then four to six digits and the end of the string. */
  predicate PhoneAccepted(s: string) {
    var a := SkipOne(Exactly('('), SkipOne(Exactly('+'), s));
    && |a| >= 3 && AllIn(Digits, a[..3])
    && var b := SkipOne(Separators, SkipOne(Exactly(')'), a[3..]));
    && |b| >= 3 && AllIn(Digits, b[..3])
    && var c := SkipOne(Separators, b[3..]);
    && 4 <= |c| <= 6 && AllIn(Digits, c)
  }

  /** A character that can begin a string `p` matches. */
  predicate CanStart(p: seq<Atom>, c: char)
    decreases |p|
  {
    if |p| == 0 then false
    else match p[0]
      case Optional(cc) => InClass(cc, c) || CanStart(p[1..], c)
      case Between(cc, lo, _) => InClass(cc, c) || (lo == 0 && CanStart(p[1..], c))
  }

  lemma {:induction false} FirstCharCanStart(p: seq<Atom>, s: string)
    requires Matches(p, s) && |s| > 0
    ensures CanStart(p, s[0])
    decreases |p|
  {
    match p[0]
    case Optional(cc) =>
      if !(InClass(cc, s[0]) && Matches(p[1..], s[1..])) {
        FirstCharCanStart(p[1..], s);
      }
    case Between(cc, lo, hi) =>
      var k :| lo <= k <= hi && k <= |s| && AllIn(cc, s[..k]) && Matches(p[1..], s[k..]);
      if k == 0 {
        assert s[k..] == s;
        FirstCharCanStart(p[1..], s);
      } else {
        assert s[..k][0] == s[0];
      }
  }

  /** An optional atom may be decided by the next character alone when what
      follows cannot start with that character. */
  lemma OptionalIsGreedy(cc: CharClass, rest: seq<Atom>, s: string)
    requires |s| > 0 && InClass(cc, s[0]) ==> !CanStart(rest, s[0])
    ensures Matches([Optional(cc)] + rest, s) <==> Matches(rest, SkipOne(cc, s))
  {
    var p := [Optional(cc)] + rest;
    assert p[1..] == rest;
    if |s| > 0 && InClass(cc, s[0]) && Matches(rest, s) {
      FirstCharCanStart(rest, s);
    }
  }

  /** `x{n}` consumes exactly `n` characters of its class. */
  lemma ExactCount(cc: CharClass, n: nat, rest: seq<Atom>, s: string)
    ensures Matches([Between(cc, n, n)] + rest, s)
        <==> |s| >= n && AllIn(cc, s[..n]) && Matches(rest, s[n..])
  {
    var p := [Between(cc, n, n)] + rest;
    assert p[1..] == rest;
  }

  /** A final `x{lo,hi}` takes the rest of the string. */
  lemma LastCount(cc: CharClass, lo: nat, hi: nat, s: string)
    ensures Matches([Between(cc, lo, hi)], s) <==> lo <= |s| <= hi && AllIn(cc, s)
  {
    var p := [Between(cc, lo, hi)];
    assert p[1..] == [];
    if lo <= |s| <= hi && AllIn(cc, s) {
      assert s[..|s|] == s && s[|s|..] == [];
    }
  }

  // The tails of the phone pattern, one atom shorter each time.
  const Tail7: seq<Atom> := [Between(Digits, 4, 6)]
  const Tail6: seq<Atom> := [Optional(Separators)] + Tail7
  const Tail5: seq<Atom> := [Between(Digits, 3, 3)] + Tail6
  const Tail4: seq<Atom> := [Optional(Separators)] + Tail5
  const Tail3: seq<Atom> := [Optional(Exactly(')'))] + Tail4
  const Tail2: seq<Atom> := [Between(Digits, 3, 3)] + Tail3
  const Tail1: seq<Atom> := [Optional(Exactly('('))] + Tail2

  lemma LastGroup(x: string)
    ensures Matches(Tail6, x) <==> var c := SkipOne(Separators, x); 4 <= |c| <= 6 && AllIn(Digits, c)
  {
    OptionalIsGreedy(Separators, Tail7, x);
    LastCount(Digits, 4, 6, SkipOne(Separators, x));
  }

  lemma MiddleGroup(x: string)
    ensures Matches(Tail3, x) <==>
      var b := SkipOne(Separators, SkipOne(Exactly(')'), x));
      |b| >= 3 && AllIn(Digits, b[..3]) && Matches(Tail6, b[3..])
  {
    OptionalIsGreedy(Exactly(')'), Tail4, x);
    var b1 := SkipOne(Exactly(')'), x);
    OptionalIsGreedy(Separators, Tail5, b1);
    ExactCount(Digits, 3, Tail6, SkipOne(Separators, b1));
  }

  lemma FirstGroup(s: string)
    ensures Matches(PhonePattern, s) <==>
      var a := SkipOne(Exactly('('), SkipOne(Exactly('+'), s));
      |a| >= 3 && AllIn(Digits, a[..3]) && Matches(Tail3, a[3..])
  {
    assert PhonePattern == [Optional(Exactly('+'))] + Tail1;
    OptionalIsGreedy(Exactly('+'), Tail1, s);
    var s1 := SkipOne(Exactly('+'), s);
    OptionalIsGreedy(Exactly('('), Tail2, s1);
    ExactCount(Digits, 3, Tail3, SkipOne(Exactly('('), s1));
  }

  /** The recogniser accepts exactly the strings the pattern matches. */
  lemma PhoneRecogniserMatchesPattern(s: string)
    ensures PhoneAccepted(s) <==> Matches(PhonePattern, s)
  {
    FirstGroup(s);
    var a := SkipOne(Exactly('('), SkipOne(Exactly('+'), s));
    if |a| >= 3 {
      MiddleGroup(a[3..]);
      var b := SkipOne(Separators, SkipOne(Exactly(')'), a[3..]));
      if |b| >= 3 {
        LastGroup(b[3..]);
      }
    }
  }

  // ---------------------------------------------------------------------
  // the two DTOs
  // ---------------------------------------------------------------------

  /** A registration form as it arrives, before validation. */
  datatype RegisterForm = RegisterForm(
    firstName: string, lastName: string, email: string, password: string,
    role: Option<string>, phone: Option<string>)

  /** The auth-service DTO (email aside). */
  predicate AuthRegisterAccepted(f: RegisterForm) {
    && NameAccepted(f.firstName)
    && NameAccepted(f.lastName)
    && PasswordAccepted(f.password)
    && RoleAccepted(f.role)
    && (f.phone.None? || PhoneAccepted(f.phone.value))
  }

  /** The gateway's own copy of the role enumeration. */
  const GatewayRoleNames: seq<string> :=
    ["Admin", "Owner", "Manager", "Kitchen", "Staff_bar", "Staff_salle", "Client"]

  /** The gateway's enumeration has exactly the values of the auth-service's,
      in the same order. */
  lemma GatewayRolesAgree(s: string)
    ensures s in GatewayRoleNames <==> FromName(s).Some?
    ensures |GatewayRoleNames| == |AllRoles|
    ensures forall i :: 0 <= i < |AllRoles| ==> GatewayRoleNames[i] == Name(AllRoles[i])
  {
  }

  /** The gateway DTO (email aside): the same name and password rules, the
      role checked against its own copy of the enumeration, and a phone that
      only has to be a string. */
  predicate GatewayRegisterAccepted(f: RegisterForm) {
    && NameAccepted(f.firstName)
    && NameAccepted(f.lastName)
    && PasswordAccepted(f.password)
    && (f.role.None? || f.role.value in GatewayRoleNames)
  }

  /** Every form the auth-service accepts passes the gateway, but not the other
      way round: the gateway lets through phones the auth-service refuses. */
  lemma GatewayIsLaxer(f: RegisterForm)
    ensures AuthRegisterAccepted(f) ==> GatewayRegisterAccepted(f)
    ensures GatewayRegisterAccepted(f) ==>
      GatewayRegisterAccepted(f.(phone := Some("abc"))) && !AuthRegisterAccepted(f.(phone := Some("abc")))
  {
    if f.role.Some? { GatewayRolesAgree(f.role.value); }
    var a := SkipOne(Exactly('('), SkipOne(Exactly('+'), "abc"));
    assert a == "abc";
    assert !IsDigit(a[0]);
  }
}

=== FILE: roles.dfy ===
/** The business roles of the identity authority and their wire names
    (auth-service/src/common/roles.enum.ts). */
module Roles {
  import opened Wrappers

  /** The seven roles. The source documents a seniority order
      (Admin > Owner > Manager > kitchen and staff > Client) in a comment,
      but no code consults it: roles are only ever compared for equality. */
  datatype Role = Admin | Owner | Manager | Kitchen | StaffBar | StaffSalle | Client

  /** The string value each role carries in tokens, requests and storage. */
  function Name(r: Role): string {
    match r
    case Admin => "Admin"
    case Owner => "Owner"
    case Manager => "Manager"
    case Kitchen => "Kitchen"
    case StaffBar => "Staff_bar"
    case StaffSalle => "Staff_salle"
    case Client => "Client"
  }

  /** Every role, in declaration order (`Object.values(UserRole)`). */
  const AllRoles: seq<Role> := [Admin, Owner, Manager, Kitchen, StaffBar, StaffSalle, Client]

  /** Reading a wire name back: the role whose name is exactly `s`, if any
      (the test `IsEnum(UserRole)` applies). */
  function FromName(s: string): (r: Option<Role>)
    ensures r.Some? ==> Name(r.value) == s
    ensures r.None? ==> forall role :: Name(role) != s
  {
    if s == "Admin" then Some(Admin)
    else if s == "Owner" then Some(Owner)
    else if s == "Manager" then Some(Manager)
    else if s == "Kitchen" then Some(Kitchen)
    else if s == "Staff_bar" then Some(StaffBar)
    else if s == "Staff_salle" then Some(StaffSalle)
    else if s == "Client" then Some(Client)
    else None
  }

  /** Names are a faithful encoding: distinct roles have distinct names, so
      `FromName` inverts `Name`. */
  lemma NameRoundTrip(r: Role)
    ensures FromName(Name(r)) == Some(r)
  {
  }

  /** `AllRoles` lists every role, each once. */
  lemma AllRolesComplete(r: Role)
    ensures r in AllRoles
    ensures forall i, j :: 0 <= i < j < |AllRoles| ==> AllRoles[i] != AllRoles[j]
  {
  }

  /** The wire names of a list of roles, as a `@Roles(...)` decorator lists them. */
  function Names(rs: seq<Role>): (ns: seq<string>)
    ensures |ns| == |rs| && forall i :: 0 <= i < |rs| ==> ns[i] == Name(rs[i])
  {
    if |rs| == 0 then [] else [Name(rs[0])] + Names(rs[1..])
  }

  /** A role's name is among the names of a list exactly when the role itself
      is in the list: no name stands for another role. */
  lemma NameListed(r: Role, rs: seq<Role>)
    ensures Name(r) in Names(rs) <==> r in rs
  {
    if Name(r) in Names(rs) {
      var i :| 0 <= i < |rs| && Names(rs)[i] == Name(r);
      NameRoundTrip(r);
      NameRoundTrip(rs[i]);
    }
  }
}

=== FILE: strings.dfy ===
/** The JavaScript string and number primitives the source leans on:
    `String.prototype.split` with a one-character separator,
    `Number.prototype.toString` and `parseInt(_, 10)` on integers,
    `String.prototype.padStart`, prefix tests, and the code-point order
    MongoDB uses to sort strings. */
module Strings {
  import opened Wrappers

  // ---------------------------------------------------------------------
  // split / join
  // ---------------------------------------------------------------------

  /** `s.split(sep)`: the maximal separator-free pieces between the
      occurrences of `sep`, empty pieces included; `"".split(sep)` is `[""]`. */
  function Split(s: string, sep: char): (parts: seq<string>)
    ensures |parts| >= 1
    ensures forall i :: 0 <= i < |parts| ==> sep !in parts[i]
    decreases |s|
  {
    if |s| == 0 then [""]
    else
      var rest := Split(s[1..], sep);
      if s[0] == sep then [""] + rest
      else [[s[0]] + rest[0]] + rest[1..]
  }

  /** `parts.join(sep)`, the inverse of `Split`. */
  function Join(parts: seq<string>, sep: char): string
    requires |parts| >= 1
    decreases |parts|
  {
    if |parts| == 1 then parts[0] else parts[0] + [sep] + Join(parts[1..], sep)
  }

  /** Splitting loses nothing: joining the pieces gives the string back. */
  lemma {:induction false} JoinSplit(s: string, sep: char)
    ensures Join(Split(s, sep), sep) == s
    decreases |s|
  {
    if |s| > 0 {
      JoinSplit(s[1..], sep);
      var rest := Split(s[1..], sep);
      if s[0] == sep {
        assert Split(s, sep)[1..] == rest;
        assert s == [sep] + s[1..];
      } else if |rest| == 1 {
        assert s == [s[0]] + s[1..];
      } else {
        var parts := Split(s, sep);
        assert parts[1..] == rest[1..];
        assert Join(rest, sep) == rest[0] + [sep] + Join(rest[1..], sep);
        assert s == [s[0]] + s[1..];
      }
    }
  }

  /** A string without the separator is a single piece. */
  lemma {:induction false} SplitNoSeparator(a: string, sep: char)
    requires sep !in a
    ensures Split(a, sep) == [a]
    decreases |a|
  {
    if |a| > 0 {
      assert sep !in a[1..] by {
        forall k | 0 <= k < |a[1..]| ensures a[1..][k] != sep { assert a[1..][k] == a[k + 1]; }
      }
      SplitNoSeparator(a[1..], sep);
      assert a == [a[0]] + a[1..];
    }
  }

  /** A separator after a separator-free piece starts a new piece. */
  lemma {:induction false} SplitAfterPiece(a: string, sep: char, b: string)
    requires sep !in a
    ensures Split(a + [sep] + b, sep) == [a] + Split(b, sep)
    decreases |a|
  {
    var s := a + [sep] + b;
    if |a| == 0 {
      assert s[1..] == b;
    } else {
      assert s[1..] == a[1..] + [sep] + b;
      assert sep !in a[1..] by {
        forall k | 0 <= k < |a[1..]| ensures a[1..][k] != sep { assert a[1..][k] == a[k + 1]; }
      }
      SplitAfterPiece(a[1..], sep, b);
      assert a == [a[0]] + a[1..];
    }
  }

  // ---------------------------------------------------------------------
  // decimal digits
  // ---------------------------------------------------------------------

  predicate IsDigit(c: char) {
    '0' <= c <= '9'
  }

  predicate AllDigits(s: string) {
    forall i :: 0 <= i < |s| ==> IsDigit(s[i])
  }

  function DigitValue(c: char): nat
    requires IsDigit(c)
  {
    (c as int) - ('0' as int)
  }

  function DigitChar(d: nat): (c: char)
    requires d < 10
    ensures IsDigit(c) && DigitValue(c) == d
  {
    (('0' as int) + d) as char
  }

  /** The value of a digit string read in base 10 (leading zeros allowed). */
  function DecimalValue(s: string): nat
    requires AllDigits(s)
    decreases |s|
  {
    if |s| == 0 then 0
    else DecimalValue(s[..|s| - 1]) * 10 + DigitValue(s[|s| - 1])
  }

  /** `n.toString()` for a non-negative integer: shortest decimal form. */
  function ToDecimal(n: nat): (s: string)
    ensures |s| >= 1 && AllDigits(s)
    ensures |s| > 1 ==> s[0] != '0'
    decreases n
  {
    if n < 10 then [DigitChar(n)] else ToDecimal(n / 10) + [DigitChar(n % 10)]
  }

  /** Reading back what `ToDecimal` wrote gives the number. */
  lemma {:induction false} DecimalRoundTrip(n: nat)
    ensures DecimalValue(ToDecimal(n)) == n
    decreases n
  {
    if n >= 10 {
      DecimalRoundTrip(n / 10);
      var s := ToDecimal(n);
      assert s[..|s| - 1] == ToDecimal(n / 10);
    }
  }

  /** `String(i)` for any integer, negative ones with a leading '-'. */
  function IntToString(i: int): string {
    if i >= 0 then ToDecimal(i) else "-" + ToDecimal(-i)
  }

  function Repeat(c: char, n: nat): (r: string)
    ensures |r| == n && forall k :: 0 <= k < n ==> r[k] == c
  {
    if n == 0 then "" else [c] + Repeat(c, n - 1)
  }

  /** `s.padStart(width, fill)` with a one-character fill: `s` unchanged when it
      is already `width` long or longer, never truncated. */
  function PadStart(s: string, width: nat, fill: char): (r: string)
    ensures |r| == (if |s| >= width then |s| else width)
    ensures r[|r| - |s|..] == s
    ensures forall k :: 0 <= k < |r| - |s| ==> r[k] == fill
  {
    if |s| >= width then s else Repeat(fill, width - |s|) + s
  }

  /** Leading zeros do not change the value of a digit string. */
  lemma {:induction false} LeadingZeros(n: nat, s: string)
    requires AllDigits(s)
    ensures AllDigits(Repeat('0', n) + s)
    ensures DecimalValue(Repeat('0', n) + s) == DecimalValue(s)
    decreases |s|
  {
    var z := Repeat('0', n);
    if |s| == 0 {
      assert z + s == z;
      ZerosValue(n);
    } else {
      var t := z + s;
      assert t[..|t| - 1] == z + s[..|s| - 1];
      LeadingZeros(n, s[..|s| - 1]);
    }
  }

  lemma {:induction false} ZerosValue(n: nat)
    ensures AllDigits(Repeat('0', n))
    ensures DecimalValue(Repeat('0', n)) == 0
    decreases n
  {
    if n > 0 {
      var z := Repeat('0', n);
      assert z[..n - 1] == Repeat('0', n - 1);
      ZerosValue(n - 1);
    }
  }

  // ---------------------------------------------------------------------
  // parseInt(_, 10)
  // ---------------------------------------------------------------------

  /** The white space JavaScript's `\s` class and `parseInt` both skip:
      WhiteSpace and LineTerminator of ECMAScript section 12.2 and 12.3. */
  predicate IsJsSpace(c: char) {
    || c == ' ' || c == '\t' || c == '\n' || c == '\r'
    || c == '\U{000B}' || c == '\U{000C}' || c == '\U{00A0}' || c == '\U{1680}'
    || ('\U{2000}' <= c <= '\U{200A}')
    || c == '\U{2028}' || c == '\U{2029}' || c == '\U{202F}' || c == '\U{205F}'
    || c == '\U{3000}' || c == '\U{FEFF}'
  }

  function TrimStart(s: string): (t: string)
    ensures |t| <= |s| && t == s[|s| - |t|..]
    ensures |t| == 0 || !IsJsSpace(t[0])
    ensures forall k :: 0 <= k < |s| - |t| ==> IsJsSpace(s[k])
    decreases |s|
  {
    if |s| > 0 && IsJsSpace(s[0]) then TrimStart(s[1..]) else s
  }

  /** Every character of `s` is JavaScript white space. */
  predicate AllJsSpace(s: string) {
    forall k :: 0 <= k < |s| ==> IsJsSpace(s[k])
  }

  /** `String.prototype.trim`: `s` without its leading and trailing white
      space, peeled one character at a time. The result neither starts nor
      ends with white space; `TrimIsStretch` says where it sits in `s`. */
  function Trim(s: string): (t: string)
    ensures |t| <= |s|
    ensures |t| == 0 || (!IsJsSpace(t[0]) && !IsJsSpace(t[|t| - 1]))
    decreases |s|
  {
    if |s| > 0 && IsJsSpace(s[0]) then Trim(s[1..])
    else if |s| > 0 && IsJsSpace(s[|s| - 1]) then Trim(s[..|s| - 1])
    else s
  }

  /** `t` is the stretch of `s` from `i` on, with only white space before
      and after it. */
  predicate TrimmedAt(s: string, t: string, i: int) {
    && 0 <= i <= |s| - |t|
    && t == s[i..i + |t|]
    && (forall k :: 0 <= k < i ==> IsJsSpace(s[k]))
    && (forall k :: i + |t| <= k < |s| ==> IsJsSpace(s[k]))
  }

  /** The result of `Trim` is a stretch of `s` with only white space before
      and after it. */
  lemma {:induction false} TrimIsStretch(s: string)
    ensures exists i :: TrimmedAt(s, Trim(s), i)
    decreases |s|
  {
    var t := Trim(s);
    if |s| > 0 && IsJsSpace(s[0]) {
      TrimIsStretch(s[1..]);
      var i :| TrimmedAt(s[1..], t, i);
      StretchAfterLead(s, t, i);
    } else if |s| > 0 && IsJsSpace(s[|s| - 1]) {
      TrimIsStretch(s[..|s| - 1]);
      var i :| TrimmedAt(s[..|s| - 1], t, i);
      StretchBeforeTrail(s, t, i);
    } else {
      assert TrimmedAt(s, t, 0);
    }
  }

  /** One leading space more moves the stretch one place right. */
  lemma StretchAfterLead(s: string, t: string, i: int)
    requires |s| > 0 && IsJsSpace(s[0]) && TrimmedAt(s[1..], t, i)
    ensures TrimmedAt(s, t, i + 1)
  {
    assert t == s[i + 1..i + 1 + |t|];
    forall k | 0 <= k < i + 1
      ensures IsJsSpace(s[k])
    {
      if k > 0 { assert s[k] == s[1..][k - 1]; }
    }
    forall k | i + 1 + |t| <= k < |s|
      ensures IsJsSpace(s[k])
    {
      assert s[k] == s[1..][k - 1];
    }
  }

  /** One trailing space more leaves the stretch where it is. */
  lemma StretchBeforeTrail(s: string, t: string, i: int)
    requires |s| > 0 && IsJsSpace(s[|s| - 1]) && TrimmedAt(s[..|s| - 1], t, i)
    ensures TrimmedAt(s, t, i)
  {
    assert t == s[i..i + |t|];
    forall k | 0 <= k < i
      ensures IsJsSpace(s[k])
    {
      assert s[k] == s[..|s| - 1][k];
    }
    forall k | i + |t| <= k < |s|
      ensures IsJsSpace(s[k])
    {
      if k < |s| - 1 { assert s[k] == s[..|s| - 1][k]; }
    }
  }

  /** Leading white space does not survive `Trim`. */
  lemma {:induction false} TrimSkipsLead(a: string, rest: string)
    requires AllJsSpace(a)
    ensures Trim(a + rest) == Trim(rest)
    decreases |a|
  {
    if |a| > 0 {
      assert (a + rest)[0] == a[0];
      assert (a + rest)[1..] == a[1..] + rest;
      TrimSkipsLead(a[1..], rest);
    } else {
      assert a + rest == rest;
    }
  }

  /** Trailing white space after a text that does not start with white
      space does not survive `Trim`. */
  lemma {:induction false} TrimSkipsTrail(t: string, b: string)
    requires AllJsSpace(b)
    requires |t| == 0 || !IsJsSpace(t[0])
    ensures Trim(t + b) == Trim(t)
    decreases |b|
  {
    var s := t + b;
    if |b| > 0 && |t| == 0 {
      assert s == b;
      assert t + b[1..] == b[1..];
      TrimSkipsTrail(t, b[1..]);
    } else if |b| > 0 {
      assert s[0] == t[0];
      assert s[|s| - 1] == b[|b| - 1];
      assert s[..|s| - 1] == t + b[..|b| - 1];
      TrimSkipsTrail(t, b[..|b| - 1]);
    } else {
      assert s == t;
    }
  }

  /** The converse of `Trim`'s contract: a text with no white space at its
      ends, padded with white space on both sides, trims back to that text. */
  lemma TrimPadded(a: string, t: string, b: string)
    requires AllJsSpace(a) && AllJsSpace(b)
    requires |t| == 0 || (!IsJsSpace(t[0]) && !IsJsSpace(t[|t| - 1]))
    ensures Trim(a + t + b) == t
  {
    assert a + t + b == a + (t + b);
    TrimSkipsLead(a, t + b);
    TrimSkipsTrail(t, b);
  }

  /** Trimming twice is trimming once. */
  lemma TrimIdempotent(s: string)
    ensures Trim(Trim(s)) == Trim(s)
  {
    var t := Trim(s);
    assert t == "" + t + "";
    TrimPadded("", t, "");
  }

  /** The longest prefix of `s` made of decimal digits. */
  function LeadingDigits(s: string): (d: string)
    ensures |d| <= |s| && d == s[..|d|]
    ensures AllDigits(d)
    ensures |d| == |s| || !IsDigit(s[|d|])
    decreases |s|
  {
    if |s| > 0 && IsDigit(s[0]) then [s[0]] + LeadingDigits(s[1..]) else ""
  }

  /** `parseInt(s, 10)`: skip leading white space, read an optional sign and
      the longest run of digits after it; `None` stands for `NaN` (no digit). */
  function ParseInt(s: string): Option<int> {
    var t := TrimStart(s);
    var signed := |t| > 0 && (t[0] == '+' || t[0] == '-');
    var body := if signed then t[1..] else t;
    var d := LeadingDigits(body);
    if |d| == 0 then None
    else if signed && t[0] == '-' then Some(-(DecimalValue(d) as int))
    else Some(DecimalValue(d))
  }

  /** `parseInt` reads a zero-padded `toString()` of `n` back as `n`. */
  lemma PadRoundTrip(n: nat, width: nat)
    ensures ParseInt(PadStart(ToDecimal(n), width, '0')) == Some(n)
  {
    var s := ToDecimal(n);
    var p := PadStart(s, width, '0');
    DecimalRoundTrip(n);
    if |s| < width {
      LeadingZeros(width - |s|, s);
    }
    ParseDigits(p);
  }

  /** Reading back a zero-padded `toString()` of `n` gives `n`. */
  lemma PaddedValue(n: nat, width: nat)
    ensures AllDigits(PadStart(ToDecimal(n), width, '0'))
    ensures DecimalValue(PadStart(ToDecimal(n), width, '0')) == n
  {
    var s := ToDecimal(n);
    DecimalRoundTrip(n);
    if |s| < width {
      LeadingZeros(width - |s|, s);
    }
  }

  /** A number below one hundred is at most two digits long. */
  lemma TwoDigitsAtMost(n: nat)
    requires n < 100
    ensures |ToDecimal(n)| <= 2
  {
    if n >= 10 { assert ToDecimal(n) == ToDecimal(n / 10) + [DigitChar(n % 10)]; }
  }

  /** `parseInt` of a non-empty digit string is its decimal value. */
  lemma ParseDigits(p: string)
    requires |p| > 0 && AllDigits(p)
    ensures ParseInt(p) == Some(DecimalValue(p))
  {
    AllDigitsTrim(p);
    AllDigitsLeading(p);
    assert p[0] != '+' && p[0] != '-' by { assert IsDigit(p[0]); }
  }

  lemma AllDigitsLeading(s: string)
    requires AllDigits(s)
    ensures LeadingDigits(s) == s
  {
  }

  lemma AllDigitsTrim(s: string)
    requires AllDigits(s)
    ensures TrimStart(s) == s
  {
    if |s| > 0 {
      assert !IsJsSpace(s[0]) by { assert IsDigit(s[0]); }
    }
  }

  // ---------------------------------------------------------------------
  // prefixes and string order
  // ---------------------------------------------------------------------

  predicate StartsWith(s: string, prefix: string) {
    |prefix| <= |s| && s[..|prefix|] == prefix
  }

  /** The order MongoDB sorts strings by: compare code point by code point,
      a proper prefix first. */
  predicate LexLess(a: string, b: string)
    decreases |a|
  {
    if |a| == 0 then |b| > 0
    else if |b| == 0 then false
    else a[0] < b[0] || (a[0] == b[0] && LexLess(a[1..], b[1..]))
  }

  lemma {:induction false} LexIrreflexive(a: string)
    ensures !LexLess(a, a)
    decreases |a|
  {
    if |a| > 0 { LexIrreflexive(a[1..]); }
  }

  lemma {:induction false} LexTotal(a: string, b: string)
    ensures a == b || LexLess(a, b) || LexLess(b, a)
    decreases |a|
  {
    if |a| > 0 && |b| > 0 && a[0] == b[0] {
      LexTotal(a[1..], b[1..]);
      if a[1..] == b[1..] {
        assert a == [a[0]] + a[1..] && b == [b[0]] + b[1..];
      }
    }
  }

  lemma {:induction false} LexTransitive(a: string, b: string, c: string)
    requires LexLess(a, b) && LexLess(b, c)
    ensures LexLess(a, c)
    decreases |a|
  {
    if |a| > 0 && a[0] == b[0] && b[0] == c[0] {
      LexTransitive(a[1..], b[1..], c[1..]);
    }
  }

  /** The first element of a descending sort: a greatest element. */
  function LexMax(xs: seq<string>): (m: string)
    requires |xs| > 0
    ensures m in xs
    ensures forall i :: 0 <= i < |xs| ==> !LexLess(m, xs[i])
    decreases |xs|
  {
    if |xs| == 1 then
      LexIrreflexive(xs[0]);
      xs[0]
    else
      var m' := LexMax(xs[1..]);
      if LexLess(m', xs[0]) then
        assert forall i :: 1 <= i < |xs| ==> !LexLess(xs[0], xs[i]) by {
          forall i | 1 <= i < |xs| ensures !LexLess(xs[0], xs[i]) {
            assert xs[i] == xs[1..][i - 1];
            if LexLess(xs[0], xs[i]) { LexTransitive(m', xs[0], xs[i]); }
          }
        }
        LexIrreflexive(xs[0]);
        xs[0]
      else
        assert !LexLess(m', xs[0]);
        assert forall i :: 1 <= i < |xs| ==> !LexLess(m', xs[i]) by {
          forall i | 1 <= i < |xs| ensures !LexLess(m', xs[i]) {
            assert xs[i] == xs[1..][i - 1];
          }
        }
        m'
  }
}

=== FILE: user_schema.dfy ===
/** The User record of the identity authority and the collection that holds
    it (auth-service/src/users/schemas/user.schema.ts): field defaults, the
    pre-save password hook, the instance and static methods, the JSON
    transform that strips credentials, and the unique index on `email`. */
module UserSchema {
  import opened Wrappers
  import opened Roles
  import opened Crypto
  import opened Encoding
  import opened Strings

  /** A stored user. `passwordHash` holds a bcrypt hash once saved;
      `refreshTokenHash` is `None` (`null`) when no session is open. */
  datatype User = User(
    id: UserId,
    firstName: string,
    lastName: string,
    email: string,
    passwordHash: Secret,
    role: Role,
    phone: Option<string>,
    isActive: bool,
    refreshTokenHash: Option<Secret>)

  /** A Mongoose document in memory: the record plus whether the path
      `passwordHash` was assigned since the document was created or loaded
      (`isModified('passwordHash')`). */
  datatype UserDoc = UserDoc(user: User, passwordModified: bool)

  /** `new userModel({...})`: the `trim` setters of `firstName`,
      `lastName`, `email` and `phone` strip surrounding white space as the
      document is built, and the schema defaults fill what is not given:
      role Client, `isActive` true, `refreshTokenHash` null. The clear-text
      password is placed in `passwordHash`, to be hashed by the save hook. */
  function NewUserDoc(id: UserId, firstName: string, lastName: string, email: string,
                      password: string, role: Option<Role>, phone: Option<string>): (d: UserDoc)
    ensures d.passwordModified && d.user.passwordHash == Clear(password)
    ensures d.user.id == id && d.user.email == Trim(email)
    ensures d.user.firstName == Trim(firstName) && d.user.lastName == Trim(lastName)
    ensures phone.None? <==> d.user.phone.None?
    ensures phone.Some? ==> d.user.phone == Some(Trim(phone.value))
    ensures role.None? ==> d.user.role == Client
    ensures role.Some? ==> d.user.role == role.value
    ensures d.user.isActive && d.user.refreshTokenHash.None?
  {
    var storedPhone := if phone.Some? then Some(Trim(phone.value)) else None;
    UserDoc(User(id, Trim(firstName), Trim(lastName), Trim(email), Clear(password), role.GetOr(Client),
                 storedPhone, true, None), true)
  }

  /** The schema's `minLength: 2` and `maxLength: 50` on a name, checked on
      the stored (trimmed) value; `required` refuses the empty name, which
      the minimum already excludes. */
  predicate NameFits(name: string) {
    2 <= |name| <= 50
  }

  /** The name validators `save()` runs on a record. */
  predicate NamesFit(u: User) {
    NameFits(u.firstName) && NameFits(u.lastName)
  }

  /** A document as read back from the collection: nothing modified. */
  function Loaded(u: User): UserDoc {
    UserDoc(u, false)
  }

  /** The `pre('save')` hook: hash `passwordHash` only when it was modified.
      No other field changes. */
  function PreSave(d: UserDoc): (u: User)
    ensures u.(passwordHash := d.user.passwordHash) == d.user
    ensures !d.passwordModified ==> u == d.user
    ensures d.passwordModified ==> Compare(d.user.passwordHash, u.passwordHash)
  {
    if d.passwordModified then d.user.(passwordHash := Hash(d.user.passwordHash)) else d.user
  }

  /** Saving a document that was saved before and not modified since leaves
      the stored record, and so the stored hash, as it is. */
  lemma SaveIdempotent(d: UserDoc)
    ensures PreSave(Loaded(PreSave(d))) == PreSave(d)
  {
  }

  /** `comparePassword(candidate)`: bcrypt comparison against the stored hash. */
  predicate ComparePassword(u: User, candidate: string) {
    Compare(Clear(candidate), u.passwordHash)
  }

  /** After the first save of a new document, `comparePassword` accepts
      exactly the passwords that agree with the one it was created with on
      the 72 bytes bcrypt reads; for a password shorter than that (every
      password the registration form admits), exactly that password. */
  lemma {:induction false} PasswordSurvivesSave(d: UserDoc, password: string, candidate: string)
    requires d.passwordModified && d.user.passwordHash == Clear(password)
    ensures ComparePassword(PreSave(d), candidate) <==> Window(Clear(candidate)) == Window(Clear(password))
    ensures |Utf8(password)| < WindowSize ==> (ComparePassword(PreSave(d), candidate) <==> candidate == password)
  {
    CompareIffSameWindow(Clear(candidate), Clear(password));
    if |Utf8(password)| < WindowSize {
      ShortTextExact(candidate, password);
    }
  }

  /** Why the hook tests `isModified`: re-hashing the stored hash on a later
      save would make every login with the right password fail. */
  lemma RehashWouldLockOut(d: UserDoc, password: string)
    requires d.passwordModified && d.user.passwordHash == Clear(password)
    ensures !ComparePassword(PreSave(UserDoc(PreSave(d), true)), password)
  {
  }

  /** `getFullName()`: "Nom Prénom", last name first, one space between. */
  function FullName(u: User): (r: string)
    ensures |r| == |u.lastName| + 1 + |u.firstName|
    ensures r[..|u.lastName|] == u.lastName
    ensures r[|u.lastName|] == ' '
    ensures r[|u.lastName| + 1..] == u.firstName
  {
    u.lastName + " " + u.firstName
  }

  // ---------------------------------------------------------------------
  // JSON serialisation
  // ---------------------------------------------------------------------

  /** Field values of a document as JSON sees them; the two hash fields carry
      bcrypt digests. */
  datatype JsonValue = JString(s: string) | JBool(b: bool) | JNull | JDigest(d: Secret)

  /** The document's own fields as a JSON object. An absent `phone` is left
      out, as Mongoose does for an unset path. */
  function Fields(u: User): map<string, JsonValue> {
    var base := map[
      "_id" := JString(u.id),
      "firstName" := JString(u.firstName),
      "lastName" := JString(u.lastName),
      "email" := JString(u.email),
      "passwordHash" := JDigest(u.passwordHash),
      "role" := JString(Name(u.role)),
      "isActive" := JBool(u.isActive),
      "refreshTokenHash" := (if u.refreshTokenHash.Some? then JDigest(u.refreshTokenHash.value) else JNull)];
    if u.phone.Some? then base["phone" := JString(u.phone.value)] else base
  }

  const SensitiveKeys: set<string> := {"passwordHash", "refreshTokenHash"}

  /** The schema's `toJSON` transform: delete the two credential fields and
      keep every other field as it is. */
  function ToJson(ret: map<string, JsonValue>): (out: map<string, JsonValue>)
    ensures out.Keys == ret.Keys - SensitiveKeys
    ensures forall k :: k in out ==> out[k] == ret[k]
  {
    map k | k in ret && k !in SensitiveKeys :: ret[k]
  }

  /** Serialising a user never exposes a bcrypt digest. */
  lemma SerialisedUserHasNoDigest(u: User)
    ensures forall k :: k in ToJson(Fields(u)) ==> !ToJson(Fields(u))[k].JDigest?
  {
  }

  // ---------------------------------------------------------------------
  // The collection
  // ---------------------------------------------------------------------

  /** The `users` collection, keyed by `_id`. */
  datatype Store = Store(users: map<UserId, User>)

  /** Why `save()` fails: a schema validator refuses the record, or the
      unique email index refuses it (MongoDB error E11000). */
  datatype StoreError = ValidationFailed | DuplicateKey(email: string)

  /** What the collection guarantees of itself: every record sits under its
      own `_id`, passed the name validators, and the unique index on `email`
      holds. */
  predicate WellFormed(s: Store) {
    && (forall id :: id in s.users ==> s.users[id].id == id && NamesFit(s.users[id]))
    && (forall a, b :: a in s.users && b in s.users && s.users[a].email == s.users[b].email ==> a == b)
  }

  /** Some record other than `id` already uses `email`. */
  predicate EmailTakenByOther(s: Store, id: UserId, email: string) {
    exists other :: other in s.users && other != id && s.users[other].email == email
  }

  /** `doc.save()`: validate the record, run the pre-save hook, then write
      the record under its `_id`. Validation comes first and refuses names
      out of bounds; the unique email index then refuses a record whose
      email another record already has. */
  function Save(s: Store, d: UserDoc): (r: Result<Store, StoreError>)
    ensures r.Err? <==> !NamesFit(d.user) || EmailTakenByOther(s, d.user.id, d.user.email)
    ensures !NamesFit(d.user) ==> r == Err(ValidationFailed)
    ensures r.Ok? ==> r.value.users == s.users[d.user.id := PreSave(d)]
    ensures r.Ok? && WellFormed(s) ==> WellFormed(r.value)
  {
    if !NamesFit(d.user) then Err(ValidationFailed)
    else if EmailTakenByOther(s, d.user.id, d.user.email) then Err(DuplicateKey(d.user.email))
    else Ok(Store(s.users[d.user.id := PreSave(d)]))
  }

  /** `findById(id)`. */
  function FindById(s: Store, id: UserId): (r: Option<User>)
    ensures r.Some? <==> id in s.users
    ensures r.Some? ==> r.value == s.users[id]
  {
    if id in s.users then Some(s.users[id]) else None
  }

  /** `findByEmail(email)`: `findOne({ email })`, whose filter Mongoose
      passes through the path's `trim` setter, so the record whose email is
      the trimmed argument (no case folding), or none. The query re-selects
      `passwordHash` only; `refreshTokenHash` stays unselected and reads as
      absent. */
  function FindByEmail(s: Store, email: string): (r: Option<User>)
    requires WellFormed(s)
    ensures r.Some? <==> exists id :: id in s.users && s.users[id].email == Trim(email)
    ensures r.Some? ==> && r.value.email == Trim(email) && r.value.id in s.users
                        && r.value == s.users[r.value.id].(refreshTokenHash := None)
  {
    var key := Trim(email);
    if exists id :: id in s.users && s.users[id].email == key then
      var id :| id in s.users && s.users[id].email == key;
      Some(s.users[id].(refreshTokenHash := None))
    else None
  }

  /** The seven fields a query returns when neither select-false path is
      re-selected: no place for a credential hash. */
  datatype PublicUser = PublicUser(
    id: UserId, firstName: string, lastName: string, email: string,
    role: Role, phone: Option<string>, isActive: bool)

  function Profile(u: User): PublicUser {
    PublicUser(u.id, u.firstName, u.lastName, u.email, u.role, u.phone, u.isActive)
  }

  /** `findActiveUsers()`: `find({isActive: true})` with the default
      projection, so the records come back without `passwordHash` and
      without `refreshTokenHash`. */
  function FindActiveUsers(s: Store): (r: set<PublicUser>)
    ensures forall p :: p in r <==> exists id :: id in s.users && s.users[id].isActive && p == Profile(s.users[id])
  {
    set id | id in s.users && s.users[id].isActive :: Profile(s.users[id])
  }

  /** A stored record is listed exactly when it is active. */
  lemma ListedIffActive(s: Store, id: UserId)
    requires id in s.users
    ensures Profile(s.users[id]) in FindActiveUsers(s) <==> s.users[id].isActive
  {
    if Profile(s.users[id]) in FindActiveUsers(s) {
      var other :| other in s.users && s.users[other].isActive && Profile(s.users[id]) == Profile(s.users[other]);
      assert Profile(s.users[id]).isActive;
    }
  }
}

=== FILE: wrappers.dfy ===
/** Failure-carrying result types shared by every module of the model.
    The source signals failure by throwing an exception; the model returns
    `Err` with the error instead. */
module Wrappers {

  /** A value that may be absent: `undefined` or `null` in the source. */
  datatype Option<+T> = None | Some(value: T) {
    function GetOr(default: T): T {
      match this
      case Some(v) => v
      case None => default
    }
  }

  /** The outcome of an operation that may throw. */
  datatype Result<+T, +E> = Ok(value: T) | Err(error: E)
}
